=== FILE: README.md ===
# Invoice extraction and chat: a Dafny model of the decision logic

The application is a small Flask service. A user uploads an invoice image. The
service checks the file name, stores the file under a time-stamped name, asks a
vision model (AWS Bedrock, or a canned mock client) to extract the invoice as
JSON, and keeps the result in the browser session. The user can then ask
questions about the invoice in a chat. Each question is answered by the model
from a plain-text context that a one-slot holder keeps.

This project models that logic as pure functions over immutable data:

- `Wrappers`: `Option` and `Result`.
- `PyText`: the Python string operations the code relies on.
  - `str.lower` (ASCII letters only), `str.strip` (the full `str.isspace` set), `str.rfind` and the substring test `in`.
  - Strip has a declarative specification, `IsStripOf`, proved of the recursive definition.
- `Json`: a JSON value with Python truthiness, `dict.get`, `type(x).__name__`.
  - Numbers with a fraction are exact decimals `JDec(units, scale)`, so money can be checked in integer cents.
- `PosixPath`: `os.path.splitext`, `os.path.join` and `os.path.basename` as on a POSIX system.
- `Utils` (app/utils.py):
  - the extension allow-list;
  - the stored file name;
  - invoice-record validation;
  - prompt loading with its built-in default text.
- `MockBedrock` (app/mock_bedrock.py):
  - the keyword dispatcher, related to an independent priority-table definition;
  - the canned extraction record, whose amounts are checked to the cent.
- `SimpleChatbot` (app/simple_chatbot.py): the one-slot context holder.
- `BedrockClient` (app/bedrock_client.py):
  - the credential check;
  - media-type selection, related to an extension table;
  - the shape of the extraction result on every path (parsed object, text that is not JSON, any other exception);
  - the chat answer or apology.
- `Routes` (app/routes.py):
  - `upload_invoice`, `chat_message`, `status` and `clear_session` as transitions over the session map (`map<string, Json>`) and the holder, each answering `(status code, JSON body)`;
  - the before-request hook;
  - `Step` and `Run` over a series of requests, with a session invariant preserved by every request.

The outside world enters only as parameters:

- werkzeug's `secure_filename`, Python's `str()` of a JSON value, and `format_json_for_display` are functions in `Routes.Deps`.
- `json.loads` is a `BedrockClient.Parser`.
- The remote model call is a `BedrockClient.Invoker`, taking the request the code builds and returning the reply text or the exception text.
- The clock, the prompt file's contents, a failed disk write and the random session id are per-request inputs (`Routes.UploadInputs`).
- The client in use (mock or live) is a parameter (`Routes.Client`).

## Model

| member | source | states |
|---|---|---|
| PyText.RFind | app/utils.py:22 | the index of the last occurrence of a character, or -1 exactly when it does not occur |
| PyText.RFindUnique | app/utils.py:22 | any index with the last-occurrence property is the one RFind returns |
| PyText.RFindAppend | app/utils.py:22 | the last occurrence in `a + b` is in `b` when `b` has the character, otherwise it is the one in `a` |
| PyText.StripSpec | app/utils.py:78 | strip removes exactly the leading and trailing whitespace: the result is a slice with only whitespace outside it and none at its ends |
| PyText.StripEmptyIffAllSpace | app/routes.py:233-236 | a string strips to empty exactly when every character is whitespace |
| PyText.StripTrimmed | app/routes.py:233 | a string with no whitespace at either end is its own strip |
| PosixPath.SplitExt | app/utils.py:41 | stem plus extension rebuild the path; the extension is empty or a dot followed by no dot and no slash; an extension is split off exactly when the last component has a non-dot character before its last dot |
| PosixPath.BasenameOfJoin | app/utils.py:44 | the base name of a folder joined with a slash-free name is that name |
| PyText.AfterLast | app/utils.py:22 | the text after the last occurrence of a character (`rsplit(c, 1)` for dots, `os.path.basename` for slashes) is free of that character and ends the string |
| PyText.AfterLastSpec | app/utils.py:22 | that text follows an occurrence of the character when there is one, and is the whole string otherwise |
| Utils.AllowedFile | app/utils.py:21-22 | the upload filter; AllowedFileNoDot and AllowedFileLastDot state it: a dotted name is accepted exactly when the lower-cased text after its last dot is allowed, and a dot-free name never is |
| Utils.AllowedFileNoDot | app/utils.py:21 | a name without a dot is rejected, whatever the allow-list |
| Utils.AllowedFileLastDot | app/utils.py:21-22 | `stem.ext` is accepted exactly when `ext` lower-cases into the allow-list, whatever dots the stem has |
| Utils.AllowedFileTrailingDot | app/utils.py:10-22 | a name ending in a dot is rejected under the default allow-list |
| Utils.AllowedFileInnerExtension | app/utils.py:10-22 | `a.png.exe` is rejected although it contains `.png` |
| Utils.AllowedFileUpperCase | app/utils.py:10-22 | `a.tar.PNG` is accepted: the extension is compared lower-cased |
| Utils.TimestampHasNoSeparators | app/utils.py:39 | a `%Y%m%d_%H%M%S` stamp contains neither a dot nor a slash |
| Utils.SavedName | app/utils.py:41-42 | the time-stamped name; SavedNameKeepsExtension, InsertBeforeExtension, AppendWithoutExtension and SavedNameInjective state it: the stamp goes before the extension, which is kept, and distinct stamps give distinct names |
| Utils.SavedNameKeepsExtension | app/utils.py:39-42 | splitting the saved name again gives the sanitised name's extension back, with the time stamp at the end of the stem |
| Utils.InsertBeforeExtension | app/utils.py:41-42 | inserting dot-free text between stem and a non-empty extension keeps that split |
| Utils.AppendWithoutExtension | app/utils.py:41-42 | appending dot-free text to a name with no extension leaves it with no extension |
| Utils.SavedNameInjective | app/utils.py:39-44 | for one sanitised name, distinct time stamps give distinct saved names |
| Utils.SaveUploadedFile | app/utils.py:24-48 | the path written to; SaveUploadedFileBasename states it: its base name is the saved name |
| Utils.SaveUploadedFileBasename | app/utils.py:39-48 | the base name of the stored path is the saved name (time stamp inserted before the extension) |
| Utils.AnyKeyInSpec | app/utils.py:173-174 | the recursive `any(field in data ...)` holds exactly when some listed key is present |
| Utils.ValidateInvoiceData | app/utils.py:169-176 | ValidateInvoiceDataSpec states it: a non-dict is invalid; a dict is valid exactly when it has a key field or more than two keys |
| Utils.ValidateInvoiceDataSpec | app/utils.py:169-176 | non-objects are invalid; an object is valid exactly when it has one of the four key fields or more than two keys |
| Utils.LoadPromptTemplate | app/utils.py:76-84 | a failed read gives exactly the built-in default prompt; a successful one gives the contents stripped of surrounding whitespace |
| Utils.LoadedPromptIsNeverDefault | app/utils.py:78-129 | a prompt read from the file never equals the default, which starts with a newline |
| Utils.LoadedPromptNeverStartsWithSpace | app/utils.py:78 | a loaded prompt never equals a text that starts with whitespace |
| MockBedrock.ChatWithClaude | app/mock_bedrock.py:59-79 | with no keyword the answer quotes the question verbatim after the fallback prefix; a keyword answer is shorter than the fallback text |
| MockBedrock.TopicOf | app/mock_bedrock.py:63-79 | the keyword dispatch; TopicOfFollowsRules states it equals the first-matching-rule table, and MockAnswerPriority that rule i answers exactly when it matches and no earlier rule does |
| MockBedrock.FirstMatchIsFirst | app/mock_bedrock.py:66-77 | in a rule table, the first rule with a matching keyword decides, whatever later rules match |
| MockBedrock.FirstMatchNone | app/mock_bedrock.py:78-79 | when no rule matches the table gives no topic |
| MockBedrock.AnyKeywordPair | app/mock_bedrock.py:66 | a two-keyword rule matches exactly when either keyword occurs |
| MockBedrock.AnyKeywordSingle | app/mock_bedrock.py:70 | a one-keyword rule matches exactly when the keyword occurs |
| MockBedrock.TopicOfFollowsRules | app/mock_bedrock.py:63-79 | the if-chain on the lower-cased question picks the same topic as the priority table (total/amount, vendor/from, date, items/services, tax, customer/bill) |
| MockBedrock.FirstMatchingRule | app/mock_bedrock.py:63-79 | returns the index of the first matching rule (or the table size), with no earlier rule matching |
| MockBedrock.MockAnswerPriority | app/mock_bedrock.py:63-79 | rule `i`'s answer is given exactly when rule `i` matches and no earlier rule does |
| MockBedrock.MockTotalAnswer | app/mock_bedrock.py:66-67 | the $2,712.50 answer is given exactly when the lower-cased question contains "total" or "amount" |
| MockBedrock.MockVendorAnswer | app/mock_bedrock.py:66-69 | the Acme Corporation answer is given exactly when "vendor" or "from" occurs and neither "total" nor "amount" does |
| MockBedrock.MockFallbackAnswer | app/mock_bedrock.py:78-79 | the fallback, quoting the original question, is given exactly when no rule matches |
| MockBedrock.MockDispatchIsCaseBlind | app/mock_bedrock.py:63 | questions with the same lower-case form get the same topic, and the same keyword answer whatever the context |
| MockBedrock.MissingCharExcludes | app/mock_bedrock.py:66-77 | a text lacking one of a keyword's characters does not contain the keyword |
| MockBedrock.LowerMissingLetter | app/mock_bedrock.py:63 | a letter absent from a question in both cases is absent from its lower-cased form |
| MockBedrock.MockChatExamples | app/mock_bedrock.py:66-69 | "total tax" gets the total answer; "Vendor for customer?" gets the vendor answer |
| MockBedrock.ExtractInvoiceData | app/mock_bedrock.py:15-57 | the canned record reports a successful extraction and passes invoice validation |
| MockBedrock.MockExtractIgnoresInputs | app/mock_bedrock.py:15-57 | the result does not depend on the image path or the prompt |
| MockBedrock.MockRecordAddsUp | app/mock_bedrock.py:30-47 | in cents, every item total is quantity times unit price, the items sum to the subtotal, and subtotal plus tax is the total |
| SimpleChatbot.UpdateInvoiceData | app/simple_chatbot.py:14-17 | LastWriteWins and ReplayKeepsLast state it: an update replaces the slot, so after a series the last data is held |
| SimpleChatbot.ContextForQuestion | app/simple_chatbot.py:19-27 | FreshContext, ContextAfterUpdate, ContextAfterFalsyUpdate and ContextIgnoresQuestion state it: the sentinel for a falsy slot, else `str(data)`, whatever the question |
| SimpleChatbot.FreshContext | app/simple_chatbot.py:9-22 | a fresh holder gives the "No invoice data available" context |
| SimpleChatbot.ContextAfterUpdate | app/simple_chatbot.py:14-27 | after storing truthy data the context is `str(data)` |
| SimpleChatbot.ContextAfterFalsyUpdate | app/simple_chatbot.py:14-22 | after storing falsy data the context is the sentinel again |
| SimpleChatbot.ContextIgnoresQuestion | app/simple_chatbot.py:19-27 | the context does not depend on the question |
| SimpleChatbot.LastWriteWins | app/simple_chatbot.py:14-16 | a second update replaces the first entirely |
| SimpleChatbot.ReplayKeepsLast | app/simple_chatbot.py:14-16 | after any non-empty series of updates the holder has exactly the last value |
| BedrockClient.Connect | app/bedrock_client.py:13-38 | construction succeeds exactly when both credential variables are set and non-empty; the region defaults to us-east-1 |
| BedrockClient.EndsWithExtension | app/bedrock_client.py:67-73 | a lower-cased path ends in "." + ext exactly when it has a dot and its last-dot suffix lower-cases to ext |
| BedrockClient.MediaType | app/bedrock_client.py:67-73 | the media type chosen by the path; MediaTypeByExtension states it follows the last-dot extension table, with JPEG as the default |
| BedrockClient.MediaTypeByExtension | app/bedrock_client.py:67-73 | the media type is the extension table's entry for the last-dot suffix (png, gif, webp), JPEG for everything else |
| BedrockClient.ExtractionRequest | app/bedrock_client.py:78-112 | the vision request carries the path's media type, the prompt and the model id |
| BedrockClient.ExtractInvoiceData | app/bedrock_client.py:49-147 | never fails. A parsed object comes back with both bookkeeping keys set and all other keys kept. Text that is not JSON gives exactly the five wrapper keys. Any other failure gives exactly three keys. Success is reported exactly when the reply parses to an object |
| BedrockClient.ChatPrompt | app/bedrock_client.py:161-171 | the context and then the question appear verbatim at fixed places in the prompt |
| BedrockClient.ChatWithClaude | app/bedrock_client.py:149-198 | the reply text verbatim, or the apology prefix followed by the exception text |
| Routes.Extract | app/routes.py:137 | whichever client is used, the extraction result is an object with an `extraction_successful` key |
| Routes.StoreUploadWrites | app/routes.py:150-153 | after storing, the session holds the data, the saved path's base name and the full path; the session id is the existing one when present and the fresh one otherwise |
| Routes.StoreUploadKeeps | app/routes.py:150-153 | storing adds exactly the four upload keys and leaves every other key's value untouched |
| Routes.KeepSessionIdWrites | app/routes.py:153 | `session.get('session_id', fresh)` keeps an existing id, writes the fresh one otherwise, and changes no other key |
| Routes.StoreInvoiceStoresExtraction | app/routes.py:130-150 | the invoice data stored is what the client extracts from the saved file with the loaded prompt |
| Routes.StoreInvoiceStoresName | app/routes.py:150-151 | the file name stored is the base name of the saved path |
| Routes.StoreInvoiceStoresSavedName | app/routes.py:126-151 | the store step on the saved path records the time-stamped saved name, whose extension is the sanitised name's |
| Routes.StoreUploadKeepsWellFormed | app/routes.py:150-153 | storing an upload into a well-formed session leaves it well-formed |
| Routes.UploadKeepsWellFormed | app/routes.py:96-198 | every outcome of an upload leaves a well-formed session well-formed |
| Routes.MarkPermanent | app/routes.py:40-43 | the before-request hook; MarkPermanentKeeps states it touches no upload key, and PreflightLeavesStateAlone that it is the only change an OPTIONS request makes |
| Routes.MarkPermanentKeeps | app/routes.py:40-43 | the before-request flag changes neither the presence nor the value of any upload key |
| Routes.UploadBody | app/routes.py:172-178 | the success body carries the data, `invoice_file` and `image_url` = "/uploads/" + the same name |
| Routes.StoreInvoice | app/routes.py:129-178 | the session holds the extracted data under the saved path's base name; the holder is updated exactly when `extraction_successful` is absent or truthy, and otherwise kept |
| Routes.UploadInvoice | app/routes.py:96-198 | OPTIONS changes nothing. Missing field, then empty name, then disallowed extension, each answer 400 with state unchanged. A write failure answers 500. A file is stored exactly when every guard passes, and 200 means exactly that |
| Routes.ReadMessage | app/routes.py:223-233 | a falsy decoded body (`null`, `{}`, `[]`, `""`, `0`, `false`) reads as "no message"; a message is read exactly when the body is an object whose `message` is a string, and is its strip; an object without `message` is "no message"; a truthy list or string is "no message" exactly when it lacks the element or substring "message", and a truthy number or `true` raises |
| Routes.ChatBody | app/routes.py:269-273 | the answer body carries the reply and the session's file name, "Unknown" when absent |
| Routes.ChatMessage | app/routes.py:216-297 | never changes state. No message, then an empty message after strip, then no invoice data, each answer 400. An answer (200) is given exactly when a non-blank message meets truthy stored data |
| Routes.ChatAnswerBody | app/routes.py:256-273 | an answered (200) message gets `success: true`, the client's reply to the stripped message asked with the holder's context, and the session's file name or "Unknown" |
| Routes.FalsyBodyRefused | app/routes.py:226-231 | a falsy decoded body (`null`, `{}`, `[]`, `""`, `0`, `false`) gets 400 "No message provided" |
| Routes.BlankMessageRefused | app/routes.py:233-241 | a whitespace-only message gets 400 "Empty message" |
| Routes.UploadStoresSavedName | app/routes.py:126-151 | the stored `invoice_file` is the time-stamped saved name and keeps the sanitised name's extension |
| Routes.MockUploadFeedsChat | app/routes.py:150-167 | with the mock client an accepted upload fills the holder with the stored data, and status then reports an invoice |
| Routes.MockExtractionSucceeds | app/mock_bedrock.py:15-57 | the canned extraction is non-empty and reports success |
| Routes.ChatAfterUpload | app/routes.py:244-273 | with stored data and the mock client, a trimmed question about the total is answered 200 with the $2,712.50 text and the stored file name |
| Routes.FailedLiveExtraction | app/routes.py:137-167 | a failed live model call still answers 200 and stores the failure record, a non-empty (truthy) dict; the holder keeps its old data. The session therefore counts as holding an invoice: status reports one, and chat's "no invoice data" check passes, so a later question is answered from the holder's old context (that last step follows from ChatMessage's contract, not from this lemma) |
| Routes.ImageUrl | app/routes.py:347 | "/uploads/" + name for a non-empty name; null exactly when the stored value is falsy |
| Routes.Status | app/routes.py:341-354 | `has_invoice` is exactly whether `invoice_data` is a key; `invoice_file` is the stored name or null; `image_url` is derived from it |
| Routes.ClearSession | app/routes.py:299-307 | the session becomes empty and the holder keeps its data |
| Routes.Step | app/routes.py:40-354 | one request: the before-request hook, then the route; StepPreservesWellFormed states it keeps the session well-formed |
| Routes.Run | app/routes.py:40-360 | a series of requests from one browser; RunPreservesWellFormed states it keeps the session well-formed |
| Routes.StepPreservesWellFormed | app/routes.py:40-303 | each request keeps the session well-formed: known keys only, data/name/path present together with a session id, and the name is the path's base name |
| Routes.RunPreservesWellFormed | app/routes.py:40-360 | any series of requests from a well-formed session leaves it well-formed |
| Routes.StatusWithoutInvoice | app/routes.py:341-354 | a session without invoice keys gets `has_invoice` false and null `invoice_file` and `image_url` |
| Routes.ChatWithoutInvoice | app/routes.py:233-253 | with no invoice data in the session, a chat message with a string `message` gets 400: blank after strip, or refused for lack of data |
| Routes.ChatUnansweredWithoutInvoice | app/routes.py:222-253 | with no invoice data in the session, no chat request is answered (200), whatever its body: it is refused before, or at, the invoice-data check |
| Routes.AfterClear | app/routes.py:248-347 | after a clear, status reports no invoice, no file and no image, and a chat body with a string `message` gets 400 |
| Routes.NoAnswerAfterClear | app/routes.py:226-255 | after a clear no chat request is answered (200), whatever its body |
| Routes.PreflightLeavesStateAlone | app/routes.py:96-220 | OPTIONS on both endpoints answers `{status: OK}`; the handler leaves session and holder unchanged, so the request as a whole changes nothing but the before-request `_permanent` flag |

## Left out

- HTTP and Flask plumbing is not modelled:
  - request parsing, including a missing or non-JSON chat body, for which `request.get_json()` raises and the handler answers 500 (the model takes the decoded body);
  - CORS headers;
  - the signed-cookie session encoding (values are stored as given);
  - `send_from_directory` and the page and debug routes: `/`, `/chat`, `/chat-test`, `/uploads/<filename>` and `/test`.
- Logging is not modelled; it has no effect on the results.
- Disk I/O, `os.makedirs` and base64 encoding are not modelled.
  - A failed save is an input string that becomes the 500 answer.
  - A failed prompt read is `None` in `LoadPromptTemplate`.
- `secure_filename`, `str()`, `json.loads`, `json.dumps`/`format_json_for_display`, `datetime.now` and `os.urandom` are parameters, not definitions.
  - The parse(format(x)) round trip depends on the real JSON codec and is not stated.
- The boto3 calls are not modelled:
  - client construction is taken to succeed once the credentials are present;
  - the body of the model request is modelled only as far as it shapes the result: model id, media type, prompt, token limit and system prompt. Not modelled: `anthropic_version`, temperature, the base64 image data, and reading the response envelope.
- Floats are exact decimals. `get_file_size_mb` and the temperature values are not modelled.
- The key order of JSON objects is not modelled: `Json.JObj` is a map, while a Python dict keeps insertion order. That order shows in `str(self.invoice_data)` (app/simple_chatbot.py:25, the chat context) and in `format_json_for_display`, which the model takes as the parameters `show` and `format` seeing only the map's contents. It also decides where `extraction_successful` and `extracted_by` land in the live result (app/bedrock_client.py:125-126).
- The mock client's `time.sleep(2)` (app/mock_bedrock.py:20) is not modelled: it only delays the result.
- The process-wide holder shared by concurrent users is not modelled: one browser's requests meet one holder.
- Choosing the client at import time (and the lazy global) is not modelled: the client is a parameter.
- Exception texts inside a 500 answer follow CPython 3.11. Only the disk-write failure is modelled as a source of the upload route's 500 answer; extraction never raises with either client.
- `Utils.AllowedFile`, `MockBedrock.TopicOf` and `BedrockClient.MediaType` lower-case ASCII letters only. Python's `str.lower` also folds other alphabets; the allow-list and keywords are ASCII, so only non-ASCII capitals that fold to ASCII letters could differ.
- Utils.IsTimestamp: fixes the stamp at 15 characters, `YYYYMMDD_HHMMSS`. A year below 1000 is not covered: there the platform `strftime` may print fewer than four digits for `%Y`.
- Routes.Status: `image_url` is stated for string names only; a non-string truthy `invoice_file` cannot arise from the handlers. For a non-string value the text is `str()` of it, a parameter.
- The browser script `app/static/js/chat.js` is not modelled (UI code).

=== FILE: bedrock_client.dfy ===
/** The pure decisions of the live model client (app/bedrock_client.py): the
    credential check, the media type of an image, the shaping of the extraction
    result on each outcome of the remote call, and the chat prompt and error text.
    The remote call itself is a parameter. */
module BedrockClient {
  import opened Wrappers
  import opened PyText
  import opened Json
  import Utils

  const AccessKeyVar: string := "AWS_ACCESS_KEY_ID"
  const SecretKeyVar: string := "AWS_SECRET_ACCESS_KEY"
  const RegionVar: string := "AWS_DEFAULT_REGION"
  const DefaultRegion: string := "us-east-1"
  const ModelId: string :=
    "arn:aws:bedrock:us-east-2:905418105552:inference-profile/us.anthropic.claude-3-5-sonnet-20240620-v1:0"
  const MissingCredentials: string := "AWS credentials not found in environment variables"

  /** A constructed client: credentials, region and model identifier. */
  datatype Config = Config(accessKey: string, secretKey: string, region: string, modelId: string)

  /** `os.environ.get(name)` is truthy: the variable is set and not empty. */
  predicate IsSetNonEmpty(env: map<string, string>, name: string) {
    name in env && env[name] != ""
  }

  /** `BedrockClient.__init__` over the process environment: fails with a ValueError
      unless both credential variables are set and non-empty. */
  function Connect(env: map<string, string>): (r: Result<Config, string>)
    ensures r.Success? <==> IsSetNonEmpty(env, AccessKeyVar) && IsSetNonEmpty(env, SecretKeyVar)
    ensures r.Failure? ==> r.error == MissingCredentials
    ensures r.Success? ==>
      && r.value.accessKey == env[AccessKeyVar]
      && r.value.secretKey == env[SecretKeyVar]
      && r.value.region == (if RegionVar in env then env[RegionVar] else DefaultRegion)
      && r.value.modelId == ModelId
  {
    if !IsSetNonEmpty(env, AccessKeyVar) || !IsSetNonEmpty(env, SecretKeyVar) then
      Failure(MissingCredentials)
    else
      Success(Config(env[AccessKeyVar], env[SecretKeyVar],
                     if RegionVar in env then env[RegionVar] else DefaultRegion, ModelId))
  }

  /** The media type sent with the image, chosen by the lower-cased path's suffix. */
  function MediaType(imagePath: string): string {
    var p := Lower(imagePath);
    if EndsWith(p, ".png") then "image/png"
    else if EndsWith(p, ".gif") then "image/gif"
    else if EndsWith(p, ".webp") then "image/webp"
    else "image/jpeg"
  }

  /** Reference table: media type by (lower-cased) extension; JPEG for everything else. */
  function MediaTypeForExtension(ext: string): string {
    if ext == "png" then "image/png"
    else if ext == "gif" then "image/gif"
    else if ext == "webp" then "image/webp"
    else "image/jpeg"
  }

  /** A lower-cased path ends in "." + `ext` exactly when the path has a dot and the
      text after its last dot lower-cases to `ext`. */
  lemma EndsWithExtension(p: string, ext: string)
    requires '.' !in ext
    ensures EndsWith(Lower(p), "." + ext) <==> '.' in p && Lower(Utils.LastDotSuffix(p)) == ext
  {
    if EndsWith(Lower(p), "." + ext) {
      EndsWithExtensionOnly(p, ext);
    }
    if '.' in p && Lower(Utils.LastDotSuffix(p)) == ext {
      ExtensionEndsWith(p, ext);
    }
  }

  lemma EndsWithExtensionOnly(p: string, ext: string)
    requires '.' !in ext && EndsWith(Lower(p), "." + ext)
    ensures '.' in p && Lower(Utils.LastDotSuffix(p)) == ext
  {
    var lp := Lower(p);
    var k := |p| - |ext| - 1;
    assert lp[k] == ("." + ext)[0] == '.';
    assert p[k] == '.';
    forall j | k < j < |p|
      ensures p[j] != '.'
    {
      assert lp[j] == ("." + ext)[j - k] == ext[j - k - 1];
    }
    RFindUnique(p, '.', k);
    assert Utils.LastDotSuffix(p) == p[k + 1..];
    assert Lower(p[k + 1..]) == lp[k + 1..];
  }

  lemma ExtensionEndsWith(p: string, ext: string)
    requires '.' !in ext && '.' in p && Lower(Utils.LastDotSuffix(p)) == ext
    ensures EndsWith(Lower(p), "." + ext)
  {
    var suffix := Utils.LastDotSuffix(p);
    var d := RFind(p, '.');
    assert p == p[..d] + "." + suffix;
    LowerAppend(p[..d] + ".", suffix);
    LowerAppend(p[..d], ".");
    assert Lower(p) == Lower(p[..d]) + "." + ext;
  }

  /** The suffix test agrees with the extension table: PNG, GIF and WEBP (in any case)
      get their own type, every other path (".bmp", ".jpg", no dot at all) is sent as JPEG. */
  lemma MediaTypeByExtension(imagePath: string)
    ensures MediaType(imagePath) ==
      if '.' in imagePath then MediaTypeForExtension(Lower(Utils.LastDotSuffix(imagePath)))
      else "image/jpeg"
  {
    assert "." + "png" == ".png" && "." + "gif" == ".gif" && "." + "webp" == ".webp";
    EndsWithExtension(imagePath, "png");
    EndsWithExtension(imagePath, "gif");
    EndsWithExtension(imagePath, "webp");
    var lp := Lower(imagePath);
    if '.' in imagePath {
      var ext := Lower(Utils.LastDotSuffix(imagePath));
      assert EndsWith(lp, ".png") <==> ext == "png";
      assert EndsWith(lp, ".gif") <==> ext == "gif";
      assert EndsWith(lp, ".webp") <==> ext == "webp";
    } else {
      assert !EndsWith(lp, ".png") && !EndsWith(lp, ".gif") && !EndsWith(lp, ".webp");
    }
  }

  /** A request to the hosted model. */
  datatype ModelRequest =
    | VisionRequest(modelId: string, mediaType: string, imagePath: string, prompt: string,
                    maxTokens: nat, system: string)
    | TextRequest(modelId: string, prompt: string, maxTokens: nat)

  /** The remote call: the answer's text (`content[0].text`), or the text of whatever
      exception reading the image, calling the model or decoding its response raised. */
  type Invoker = ModelRequest -> Result<string, string>

  /** `json.loads`: the decoded value, or the text of the JSONDecodeError. */
  type Parser = string -> Result<Json, string>

  const ExtractionSystemPrompt: string :=
    "You are a professional invoice data extraction assistant. Always respond with valid JSON format."
  const Attribution: string := "AWS Bedrock Claude 3.5 Vision"
  const FailedAttribution: string := "AWS Bedrock Claude 3.5 Vision (Failed)"
  const NotJsonError: string := "Response was not in valid JSON format"

  /** The extraction request: the image with its inferred media type and the prompt. */
  function ExtractionRequest(cfg: Config, imagePath: string, prompt: string): (r: ModelRequest)
    ensures r.VisionRequest? && r.mediaType == MediaType(imagePath)
    ensures r.prompt == prompt && r.imagePath == imagePath && r.modelId == cfg.modelId
  {
    VisionRequest(cfg.modelId, MediaType(imagePath), imagePath, prompt, 4000, ExtractionSystemPrompt)
  }

  /** The TypeError text of `value['extraction_successful'] = True` on a non-dict. */
  function ItemAssignmentError(value: Json): string {
    if value.JArr? then "list indices must be integers or slices, not str"
    else "'" + TypeName(value) + "' object does not support item assignment"
  }

  /** The record returned from the outer exception handler. */
  function FailureRecord(message: string): Json {
    JObj(map[
      "error" := JStr(message),
      "extraction_successful" := JBool(false),
      "extracted_by" := JStr(FailedAttribution)
    ])
  }

  /** The record wrapping an answer that is not JSON. */
  function NotJsonRecord(text: string, jsonError: string): Json {
    JObj(map[
      "raw_extraction" := JStr(text),
      "extraction_successful" := JBool(false),
      "error" := JStr(NotJsonError),
      "json_error" := JStr(jsonError),
      "extracted_by" := JStr(Attribution)
    ])
  }

  /** `BedrockClient.extract_invoice_data`. It never raises: every outcome of the call
      and of the parse is turned into an object carrying both bookkeeping keys. */
  function ExtractInvoiceData(cfg: Config, imagePath: string, prompt: string,
                              invoke: Invoker, parse: Parser): (r: Json)
    ensures r.JObj? && "extraction_successful" in r.fields && "extracted_by" in r.fields
    // parsed to an object: that object, both flags set, every other key untouched
    ensures var reply := invoke(ExtractionRequest(cfg, imagePath, prompt));
      reply.Success? && parse(reply.value).Success? && parse(reply.value).value.JObj? ==>
        var m := parse(reply.value).value.fields;
        && r.fields.Keys == m.Keys + {"extraction_successful", "extracted_by"}
        && r.fields["extraction_successful"] == JBool(true)
        && r.fields["extracted_by"] == JStr(Attribution)
        && forall k | k in m && k != "extraction_successful" && k != "extracted_by" :: r.fields[k] == m[k]
    // not JSON: exactly the five wrapper keys, with the unparsed text kept
    ensures var reply := invoke(ExtractionRequest(cfg, imagePath, prompt));
      reply.Success? && parse(reply.value).Failure? ==>
        && r.fields.Keys == {"raw_extraction", "extraction_successful", "error", "json_error", "extracted_by"}
        && r.fields["raw_extraction"] == JStr(reply.value)
        && r.fields["extraction_successful"] == JBool(false)
        && r.fields["json_error"] == JStr(parse(reply.value).error)
        && r.fields["error"] == JStr(NotJsonError)
        && r.fields["extracted_by"] == JStr(Attribution)
    // any other exception, including a parse to a non-object: exactly three keys
    ensures var reply := invoke(ExtractionRequest(cfg, imagePath, prompt));
      (reply.Failure? || !parse(reply.value).Success? || !parse(reply.value).value.JObj?)
      && !(reply.Success? && parse(reply.value).Failure?) ==>
        && r.fields.Keys == {"error", "extraction_successful", "extracted_by"}
        && r.fields["extraction_successful"] == JBool(false)
        && r.fields["extracted_by"] == JStr(FailedAttribution)
        && (reply.Failure? ==> r.fields["error"] == JStr(reply.error))
        && (reply.Success? ==> r.fields["error"] == JStr(ItemAssignmentError(parse(reply.value).value)))
    ensures r.fields["extraction_successful"] == JBool(true) <==>
      var reply := invoke(ExtractionRequest(cfg, imagePath, prompt));
      reply.Success? && parse(reply.value).Success? && parse(reply.value).value.JObj?
  {
    match invoke(ExtractionRequest(cfg, imagePath, prompt))
    case Failure(e) => FailureRecord(e)
    case Success(text) =>
      match parse(text)
      case Failure(jsonError) => NotJsonRecord(text, jsonError)
      case Success(value) =>
        if value.JObj? then
          JObj(value.fields["extraction_successful" := JBool(true)]["extracted_by" := JStr(Attribution)])
        else
          FailureRecord(ItemAssignmentError(value))
  }

  const ChatPromptHead: string :=
    "\n            Based on the following invoice data, please answer the user's question accurately and concisely.\n"
    + "            \n"
    + "            Invoice Data:\n"
    + "            "
  const ChatPromptMiddle: string :=
    "\n            \n"
    + "            User Question: "
  const ChatPromptTail: string :=
    "\n            \n"
    + "            Please provide a helpful and accurate answer based only on the information available in the invoice data.\n"
    + "            If the information is not available in the invoice, please say so clearly.\n"
    + "            "

  /** The chat prompt: the context, then the question, inside fixed instructions. */
  function ChatPrompt(context: string, question: string): (r: string)
    ensures OccursAt(r, context, |ChatPromptHead|)
    ensures OccursAt(r, question, |ChatPromptHead| + |context| + |ChatPromptMiddle|)
  {
    ChatPromptHead + context + ChatPromptMiddle + question + ChatPromptTail
  }

  const ChatErrorPrefix: string := "Sorry, I encountered an error while processing your question: "

  /** The chat request. */
  function ChatModelRequest(cfg: Config, question: string, context: string): ModelRequest {
    TextRequest(cfg.modelId, ChatPrompt(context, question), 2000)
  }

  /** `BedrockClient.chat_with_claude`: the answer text verbatim, or an apology that
      ends with the exception's text. It never raises. */
  function ChatWithClaude(cfg: Config, question: string, context: string, invoke: Invoker): (r: string)
    ensures invoke(ChatModelRequest(cfg, question, context)).Success? ==>
      r == invoke(ChatModelRequest(cfg, question, context)).value
    ensures invoke(ChatModelRequest(cfg, question, context)).Failure? ==>
      StartsWith(r, ChatErrorPrefix) && r[|ChatErrorPrefix|..] == invoke(ChatModelRequest(cfg, question, context)).error
  {
    match invoke(ChatModelRequest(cfg, question, context))
    case Success(text) => text
    case Failure(e) => ChatErrorPrefix + e
  }
}

=== FILE: json.dfy ===
/** JSON values as the application handles them after `json.loads`, together with the
    Python notions it applies to them: truth value, `dict.get` and type names. */
module Json {
  import opened Wrappers

  /** A JSON value. Numbers with a fraction part are kept as the exact decimal
      `units / 10^scale` as written (2712.50 is `JDec(271250, 2)`). */
  datatype Json =
    | JNull
    | JBool(b: bool)
    | JInt(i: int)
    | JDec(units: int, scale: nat)
    | JStr(s: string)
    | JArr(items: seq<Json>)
    | JObj(fields: map<string, Json>)

  /** Python's truth value of the decoded value (`bool(x)`): None, False, zero,
      and empty strings, lists and dicts are false. */
  predicate Truthy(j: Json) {
    match j
    case JNull => false
    case JBool(b) => b
    case JInt(i) => i != 0
    case JDec(u, _) => u != 0
    case JStr(s) => s != []
    case JArr(xs) => xs != []
    case JObj(m) => m != map[]
  }

  /** `m.get(key, default)`. */
  function Get(m: map<string, Json>, key: string, default: Json): Json {
    if key in m then m[key] else default
  }

  /** `type(x).__name__` of the decoded value. */
  function TypeName(j: Json): string {
    match j
    case JNull => "NoneType"
    case JBool(_) => "bool"
    case JInt(_) => "int"
    case JDec(_, _) => "float"
    case JStr(_) => "str"
    case JArr(_) => "list"
    case JObj(_) => "dict"
  }

  function Pow10(n: nat): nat {
    if n == 0 then 1 else 10 * Pow10(n - 1)
  }

  /** The value of a JSON number in whole cents, when it has at most two decimals. */
  function Cents(j: Json): Option<int> {
    match j
    case JInt(i) => Some(i * 100)
    case JDec(u, s) => if s <= 2 then Some(u * Pow10(2 - s)) else None
    case _ => None
  }
}

=== FILE: mock_bedrock.dfy ===
/** The stand-in model client used when no cloud credentials are configured
    (app/mock_bedrock.py): a canned extraction record and keyword-driven canned answers. */
module MockBedrock {
  import opened Wrappers
  import opened PyText
  import opened Json
  import Utils

  /** Which canned answer a question gets. */
  datatype Topic = TotalTopic | VendorTopic | DateTopic | ItemsTopic | TaxTopic | CustomerTopic | NoTopic

  const TotalAnswer: string := "The total amount on this invoice is " + "$2,712.50" + "."
  const VendorAnswer: string :=
    "This invoice is from " + "Acme Corporation" + ", located at 456 Business Ave, Commerce City, ST 67890."
  const DateAnswer: string := "The invoice date is August 3, 2025, and it's due on September 2, 2025."
  const ItemsAnswer: string :=
    "The invoice includes Professional Services (10 units at $150 each) and Consulting Hours (5 units at $200 each)."
  const TaxAnswer: string := "The tax amount is $212.50, calculated at 8.5% tax rate."
  const CustomerAnswer: string := "This invoice is billed to John Smith at 123 Main Street, Anytown, ST 12345."
  const FallbackPrefix: string := "I can help you with questions about this invoice. You asked: '"
  const FallbackSuffix: string :=
    "'. The invoice contains information about vendor (Acme Corporation), total amount ($2,712.50), "
    + "items, dates, and more. Please ask specific questions about these details."

  /** The branch of `chat_with_claude`'s if/elif chain taken for a question. */
  function TopicOf(question: string): Topic {
    var q := Lower(question);
    if Contains(q, "total") || Contains(q, "amount") then TotalTopic
    else if Contains(q, "vendor") || Contains(q, "from") then VendorTopic
    else if Contains(q, "date") then DateTopic
    else if Contains(q, "items") || Contains(q, "services") then ItemsTopic
    else if Contains(q, "tax") then TaxTopic
    else if Contains(q, "customer") || Contains(q, "bill") then CustomerTopic
    else NoTopic
  }

  /** The text returned for a topic; only the fallback quotes the question. */
  function AnswerOf(topic: Topic, question: string): string {
    match topic
    case TotalTopic => TotalAnswer
    case VendorTopic => VendorAnswer
    case DateTopic => DateAnswer
    case ItemsTopic => ItemsAnswer
    case TaxTopic => TaxAnswer
    case CustomerTopic => CustomerAnswer
    case NoTopic => FallbackPrefix + question + FallbackSuffix
  }

  /** `MockBedrockClient.chat_with_claude`: the context is accepted and ignored. */
  function ChatWithClaude(question: string, context: string): (r: string)
    ensures TopicOf(question) == NoTopic ==> OccursAt(r, question, |FallbackPrefix|)
    ensures TopicOf(question) != NoTopic ==> |r| < |FallbackPrefix + FallbackSuffix|
  {
    AnswerOf(TopicOf(question), question)
  }

  // Reference definition of the dispatch: a keyword table scanned in priority order.

  datatype Rule = Rule(topic: Topic, keywords: seq<string>)

  const Rules: seq<Rule> := [
    Rule(TotalTopic, ["total", "amount"]),
    Rule(VendorTopic, ["vendor", "from"]),
    Rule(DateTopic, ["date"]),
    Rule(ItemsTopic, ["items", "services"]),
    Rule(TaxTopic, ["tax"]),
    Rule(CustomerTopic, ["customer", "bill"])
  ]

  /** Some keyword of the list occurs in the text. */
  predicate AnyKeyword(keywords: seq<string>, text: string) {
    exists i | 0 <= i < |keywords| :: Contains(text, keywords[i])
  }

  /** The topic of the first rule with a matching keyword, or NoTopic. */
  function FirstMatch(rules: seq<Rule>, text: string): Topic {
    if |rules| == 0 then NoTopic
    else if AnyKeyword(rules[0].keywords, text) then rules[0].topic
    else FirstMatch(rules[1..], text)
  }

  /** The first matching rule wins, whatever later rules would match. */
  lemma {:induction false} FirstMatchIsFirst(rules: seq<Rule>, text: string, i: int)
    requires 0 <= i < |rules| && AnyKeyword(rules[i].keywords, text)
    requires forall j | 0 <= j < i :: !AnyKeyword(rules[j].keywords, text)
    ensures FirstMatch(rules, text) == rules[i].topic
  {
    if i > 0 {
      assert !AnyKeyword(rules[0].keywords, text);
      assert rules[1..][i - 1] == rules[i];
      forall j | 0 <= j < i - 1
        ensures !AnyKeyword(rules[1..][j].keywords, text)
      {
        assert rules[1..][j] == rules[j + 1];
      }
      FirstMatchIsFirst(rules[1..], text, i - 1);
    }
  }

  /** With no matching rule the result is NoTopic. */
  lemma {:induction false} FirstMatchNone(rules: seq<Rule>, text: string)
    requires forall j | 0 <= j < |rules| :: !AnyKeyword(rules[j].keywords, text)
    ensures FirstMatch(rules, text) == NoTopic
  {
    if |rules| > 0 {
      assert !AnyKeyword(rules[0].keywords, text);
      forall j | 0 <= j < |rules| - 1
        ensures !AnyKeyword(rules[1..][j].keywords, text)
      {
        assert rules[1..][j] == rules[j + 1];
      }
      FirstMatchNone(rules[1..], text);
    }
  }

  lemma AnyKeywordPair(a: string, b: string, text: string)
    ensures AnyKeyword([a, b], text) <==> Contains(text, a) || Contains(text, b)
  {
    if Contains(text, a) {
      assert Contains(text, [a, b][0]);
    }
    if Contains(text, b) {
      assert Contains(text, [a, b][1]);
    }
  }

  lemma AnyKeywordSingle(a: string, text: string)
    ensures AnyKeyword([a], text) <==> Contains(text, a)
  {
    if Contains(text, a) {
      assert Contains(text, [a][0]);
    }
  }

  /** The if/elif chain is the keyword table scanned in order over the lower-cased question. */
  lemma TopicOfFollowsRules(question: string)
    ensures TopicOf(question) == FirstMatch(Rules, Lower(question))
  {
    var q := Lower(question);
    AnyKeywordPair("total", "amount", q);
    AnyKeywordPair("vendor", "from", q);
    AnyKeywordSingle("date", q);
    AnyKeywordPair("items", "services", q);
    AnyKeywordSingle("tax", q);
    AnyKeywordPair("customer", "bill", q);
    var r1 := Rules[1..];
    var r2 := r1[1..];
    var r3 := r2[1..];
    var r4 := r3[1..];
    var r5 := r4[1..];
    assert FirstMatch(Rules, q) == if AnyKeyword(["total", "amount"], q) then TotalTopic else FirstMatch(r1, q);
    assert FirstMatch(r1, q) == if AnyKeyword(["vendor", "from"], q) then VendorTopic else FirstMatch(r2, q);
    assert FirstMatch(r2, q) == if AnyKeyword(["date"], q) then DateTopic else FirstMatch(r3, q);
    assert FirstMatch(r3, q) == if AnyKeyword(["items", "services"], q) then ItemsTopic else FirstMatch(r4, q);
    assert FirstMatch(r4, q) == if AnyKeyword(["tax"], q) then TaxTopic else FirstMatch(r5, q);
    assert FirstMatch(r5, q) == if AnyKeyword(["customer", "bill"], q) then CustomerTopic else NoTopic;
  }

  /** The index of the first rule with a keyword in `text`, or |Rules| when there is none. */
  lemma FirstMatchingRule(text: string) returns (i: int)
    ensures 0 <= i <= |Rules|
    ensures i < |Rules| ==> AnyKeyword(Rules[i].keywords, text)
    ensures forall j | 0 <= j < i :: !AnyKeyword(Rules[j].keywords, text)
  {
    i := 0;
    while i < |Rules| && !AnyKeyword(Rules[i].keywords, text)
      invariant 0 <= i <= |Rules|
      invariant forall j | 0 <= j < i :: !AnyKeyword(Rules[j].keywords, text)
    {
      i := i + 1;
    }
  }

  /** Rule `i` decides the answer exactly when one of its keywords occurs in the
      lower-cased question and no keyword of an earlier rule does. */
  lemma MockAnswerPriority(question: string, context: string, i: int)
    requires 0 <= i < |Rules|
    ensures ChatWithClaude(question, context) == AnswerOf(Rules[i].topic, question) <==>
      (AnyKeyword(Rules[i].keywords, Lower(question)) &&
       forall j | 0 <= j < i :: !AnyKeyword(Rules[j].keywords, Lower(question)))
  {
    var q := Lower(question);
    TopicOfFollowsRules(question);
    var k := FirstMatchingRule(q);
    RuleTopic(i);
    AnswersDiffer(TopicOf(question), Rules[i].topic, question);
    if k < |Rules| {
      FirstMatchIsFirst(Rules, q, k);
      RuleTopic(k);
    } else {
      FirstMatchNone(Rules, q);
    }
  }

  /** Each rule has its own topic, and none is the fallback. */
  lemma RuleTopic(i: int)
    requires 0 <= i < |Rules|
    ensures Rules[i].topic != NoTopic
    ensures forall j | 0 <= j < |Rules| && j != i :: Rules[j].topic != Rules[i].topic
  {
  }

  /** Different topics give different texts (their lengths differ). */
  lemma AnswersDiffer(t1: Topic, t2: Topic, question: string)
    ensures AnswerOf(t1, question) == AnswerOf(t2, question) <==> t1 == t2
  {
    assert |TotalAnswer| == 46 && |VendorAnswer| == 92 && |DateAnswer| == 70;
    assert |ItemsAnswer| == 111 && |TaxAnswer| == 55 && |CustomerAnswer| == 75;
    assert |FallbackPrefix + question + FallbackSuffix| > 111;
  }

  /** Any question mentioning "total" or "amount", in any letter case, gets the total,
      and no other question does. */
  lemma MockTotalAnswer(question: string, context: string)
    ensures ChatWithClaude(question, context) == TotalAnswer <==>
      Contains(Lower(question), "total") || Contains(Lower(question), "amount")
  {
    MockAnswerPriority(question, context, 0);
    AnyKeywordPair("total", "amount", Lower(question));
  }

  /** "vendor" or "from" without "total" or "amount" gets the vendor answer, even
      when the question also mentions a later keyword such as "customer". */
  lemma MockVendorAnswer(question: string, context: string)
    ensures ChatWithClaude(question, context) == VendorAnswer <==>
      !Contains(Lower(question), "total") && !Contains(Lower(question), "amount") &&
      (Contains(Lower(question), "vendor") || Contains(Lower(question), "from"))
  {
    MockAnswerPriority(question, context, 1);
    AnyKeywordPair("total", "amount", Lower(question));
    AnyKeywordPair("vendor", "from", Lower(question));
  }

  /** Without any keyword the fallback is returned, quoting the question as typed
      (not lower-cased); it is returned for no other question. */
  lemma MockFallbackAnswer(question: string, context: string)
    ensures ChatWithClaude(question, context) == FallbackPrefix + question + FallbackSuffix <==>
      forall j | 0 <= j < |Rules| :: !AnyKeyword(Rules[j].keywords, Lower(question))
  {
    var q := Lower(question);
    TopicOfFollowsRules(question);
    var k := FirstMatchingRule(q);
    if k < |Rules| {
      FirstMatchIsFirst(Rules, q, k);
      assert TopicOf(question) != NoTopic;
    } else {
      FirstMatchNone(Rules, q);
    }
  }

  /** Only the lower-cased question chooses the branch; the context never matters. */
  lemma MockDispatchIsCaseBlind(q1: string, q2: string, c1: string, c2: string)
    requires Lower(q1) == Lower(q2)
    ensures TopicOf(q1) == TopicOf(q2)
    ensures TopicOf(q1) != NoTopic ==> ChatWithClaude(q1, c1) == ChatWithClaude(q2, c2)
  {
  }

  /** A needle with a character the haystack lacks does not occur in it. */
  lemma MissingCharExcludes(haystack: string, needle: string, k: int)
    requires 0 <= k < |needle| && needle[k] !in haystack
    ensures !Contains(haystack, needle)
  {
  }

  /** A lower-case letter is missing from the lower-cased text when neither case of it occurs. */
  lemma LowerMissingLetter(s: string, c: char)
    requires 'a' <= c <= 'z'
    requires c !in s && LowerUpper(c) !in s
    ensures c !in Lower(s)
  {
  }

  function LowerUpper(c: char): char
    requires 'a' <= c <= 'z'
  {
    (c as int - 'a' as int + 'A' as int) as char
  }

  /** Examples: the first matching keyword wins ("total tax" is about the total). */
  lemma MockChatExamples(context: string)
    ensures ChatWithClaude("What is the total?", context) == TotalAnswer
    ensures ChatWithClaude("total tax", context) == TotalAnswer
    ensures ChatWithClaude("Vendor for customer?", context) == VendorAnswer
    ensures Contains(TotalAnswer, "$2,712.50") && Contains(VendorAnswer, "Acme Corporation")
  {
    assert OccursAt(Lower("What is the total?"), "total", 12);
    assert OccursAt(Lower("total tax"), "total", 0);
    var v := "Vendor for customer?";
    assert Lower(v)[..6] == "vendor";
    assert OccursAt(Lower(v), "vendor", 0);
    LowerMissingLetter(v, 'l');
    LowerMissingLetter(v, 'a');
    MissingCharExcludes(Lower(v), "total", 4);
    MissingCharExcludes(Lower(v), "amount", 0);
    assert OccursAt(TotalAnswer, "$2,712.50", 36);
    assert OccursAt(VendorAnswer, "Acme Corporation", 21);
  }

  /** One line item of the canned record. */
  function LineItem(description: string, quantity: int, unitPrice: Json, total: Json): Json {
    JObj(map[
      "description" := JStr(description),
      "quantity" := JInt(quantity),
      "unit_price" := unitPrice,
      "total" := total
    ])
  }

  /** The canned record `MockBedrockClient.extract_invoice_data` returns. */
  const MockRecord: Json := JObj(map[
    "invoice_number" := JStr("INV-2025-001"),
    "date" := JStr("2025-08-03"),
    "vendor" := JStr("Acme Corporation"),
    "vendor_address" := JStr("456 Business Ave, Commerce City, ST 67890"),
    "customer" := JStr("John Smith"),
    "customer_address" := JStr("123 Main Street, Anytown, ST 12345"),
    "total_amount" := JDec(271250, 2),
    "tax_amount" := JDec(21250, 2),
    "subtotal" := JDec(250000, 2),
    "tax_rate" := JStr("8.5%"),
    "currency" := JStr("USD"),
    "items" := JArr([
      LineItem("Professional Services", 10, JDec(15000, 2), JDec(150000, 2)),
      LineItem("Consulting Hours", 5, JDec(20000, 2), JDec(100000, 2))
    ]),
    "payment_terms" := JStr("Net 30"),
    "due_date" := JStr("2025-09-02"),
    "extraction_successful" := JBool(true),
    "extraction_method" := JStr("Mock data for testing"),
    "confidence_score" := JDec(95, 2)
  ])

  /** `MockBedrockClient.extract_invoice_data`: the image path and prompt are ignored
      and the result always reports a successful extraction. */
  function ExtractInvoiceData(imagePath: string, prompt: string): (r: Json)
    ensures r.JObj? && Get(r.fields, "extraction_successful", JNull) == JBool(true)
    ensures Utils.ValidateInvoiceData(r)
  {
    assert "invoice_number" in MockRecord.fields;
    Utils.ValidateInvoiceDataSpec(MockRecord);
    MockRecord
  }

  /** The value under `key` of an object, or null. */
  function Field(j: Json, key: string): Json {
    if j.JObj? then Get(j.fields, key, JNull) else JNull
  }

  /** A line item whose total is its quantity times its unit price, in cents. */
  predicate ItemAddsUp(item: Json) {
    && Field(item, "quantity").JInt?
    && Cents(Field(item, "unit_price")).Some?
    && Cents(Field(item, "total")).Some?
    && Cents(Field(item, "total")).value
       == Field(item, "quantity").i * Cents(Field(item, "unit_price")).value
  }

  /** The sum in cents of the items' totals, if every one is a number with at most two decimals. */
  function SumOfTotals(items: seq<Json>): Option<int> {
    if |items| == 0 then Some(0)
    else
      var head := Cents(Field(items[0], "total"));
      var rest := SumOfTotals(items[1..]);
      if head.Some? && rest.Some? then Some(head.value + rest.value) else None
  }

  /** Every item adds up, the items sum to the subtotal, and subtotal plus tax is the total. */
  predicate RecordAddsUp(r: Json) {
    && Field(r, "items").JArr?
    && (forall i | 0 <= i < |Field(r, "items").items| :: ItemAddsUp(Field(r, "items").items[i]))
    && Cents(Field(r, "subtotal")).Some?
    && Cents(Field(r, "tax_amount")).Some?
    && Cents(Field(r, "total_amount")).Some?
    && SumOfTotals(Field(r, "items").items) == Cents(Field(r, "subtotal"))
    && Cents(Field(r, "subtotal")).value + Cents(Field(r, "tax_amount")).value
       == Cents(Field(r, "total_amount")).value
  }

  /** The canned money fields are consistent to the cent. */
  lemma MockRecordAddsUp()
    ensures RecordAddsUp(MockRecord)
  {
    var items := Field(MockRecord, "items").items;
    assert ItemAddsUp(items[0]);
    assert ItemAddsUp(items[1]);
    assert SumOfTotals(items[1..][1..]) == Some(0);
  }

  /** Whatever image and prompt are passed, the same record comes back. */
  lemma MockExtractIgnoresInputs(path1: string, prompt1: string, path2: string, prompt2: string)
    ensures ExtractInvoiceData(path1, prompt1) == ExtractInvoiceData(path2, prompt2)
  {
  }
}

=== FILE: posix_path.dfy ===
/** The three `os.path` functions of a POSIX system that the upload code uses. */
module PosixPath {
  import opened PyText

  /** Some character of `p[lo..hi]` is not a dot. */
  predicate HasNonDot(p: string, lo: int, hi: int) {
    exists k | 0 <= lo <= k < hi <= |p| :: p[k] != '.'
  }

  /** `os.path.splitext(p)`: split at the last dot of the final path component,
      unless that component is only dots up to that dot (a leading-dot name such
      as ".bashrc" has no extension). */
  function SplitExt(p: string): (r: (string, string))
    ensures r.0 + r.1 == p
    ensures r.1 == [] || (r.1[0] == '.' && '.' !in r.1[1..] && '/' !in r.1)
    // an extension is split off exactly when some dot of the last component has a
    // non-dot character before it within that component
    ensures r.1 != [] ==> HasNonDot(p, RFind(p, '/') + 1, |r.0|)
    ensures r.1 == [] ==> forall i | RFind(p, '/') < i < |p| && p[i] == '.' :: !HasNonDot(p, RFind(p, '/') + 1, i)
  {
    var sep := RFind(p, '/');
    var dot := RFind(p, '.');
    if dot > sep && HasNonDot(p, sep + 1, dot) then (p[..dot], p[dot..]) else (p, [])
  }

  /** `os.path.join(a, b)`. */
  function Join(a: string, b: string): string {
    if StartsWith(b, "/") then b
    else if a == [] || EndsWith(a, "/") then a + b
    else a + "/" + b
  }

  /** `os.path.basename(p)`: the text after the last slash. */
  function Basename(p: string): string {
    AfterLast(p, '/')
  }

  /** Joining a slash-free name under any folder and taking the base name gives the name back. */
  lemma {:induction false} BasenameOfJoin(folder: string, name: string)
    requires '/' !in name
    ensures Basename(Join(folder, name)) == name
  {
    assert !StartsWith(name, "/") by {
      assert "/"[0] == '/';
    }
    var dir := if folder == [] || EndsWith(folder, "/") then folder else folder + "/";
    assert Join(folder, name) == dir + name;
    RFindAppendLeft(dir, name, '/');
    if dir == [] {
      assert RFind(dir, '/') == -1;
    } else {
      assert dir[|dir| - 1] == '/';
      assert RFind(dir, '/') == |dir| - 1;
    }
    assert (dir + name)[|dir|..] == name;
  }
}

=== FILE: pytext.dfy ===
/** The handful of Python `str` operations the application relies on:
    `lower`, `strip`, `rfind`, `endswith`, `startswith` and the `in` operator. */
module PyText {

  /** Python's `str.isspace()` for one character: the Unicode whitespace set
      (bidirectional class WS, B or S, or general category Zs). */
  predicate IsSpace(c: char) {
    || ('\U{9}' <= c <= '\U{D}')
    || ('\U{1C}' <= c <= '\U{1F}')
    || c == ' '
    || c == '\U{85}'
    || c == '\U{A0}'
    || c == '\U{1680}'
    || ('\U{2000}' <= c <= '\U{200A}')
    || c == '\U{2028}'
    || c == '\U{2029}'
    || c == '\U{202F}'
    || c == '\U{205F}'
    || c == '\U{3000}'
  }

  /** Lower-casing of one character, restricted to the ASCII letters. */
  function LowerChar(c: char): char {
    if 'A' <= c <= 'Z' then (c as int - 'A' as int + 'a' as int) as char else c
  }

  /** `s.lower()`, character by character (ASCII letters only). */
  function Lower(s: string): string {
    seq(|s|, i requires 0 <= i < |s| => LowerChar(s[i]))
  }

  lemma LowerAppend(a: string, b: string)
    ensures Lower(a + b) == Lower(a) + Lower(b)
  {
  }

  /** `needle in haystack` for two strings: a substring test (the empty string is in every string). */
  predicate Contains(haystack: string, needle: string) {
    exists i | 0 <= i <= |haystack| - |needle| :: OccursAt(haystack, needle, i)
  }

  /** `needle` occurs in `haystack` starting at index `i`. */
  predicate OccursAt(haystack: string, needle: string, i: int) {
    0 <= i <= |haystack| - |needle| && haystack[i..i + |needle|] == needle
  }

  /** `s.startswith(prefix)`. */
  predicate StartsWith(s: string, prefix: string) {
    |prefix| <= |s| && s[..|prefix|] == prefix
  }

  /** `s.endswith(suffix)`. */
  predicate EndsWith(s: string, suffix: string) {
    |suffix| <= |s| && s[|s| - |suffix|..] == suffix
  }

  /** `s.rfind(c)`: the index of the last occurrence of `c`, or -1 when there is none. */
  function RFind(s: string, c: char): (r: int)
    ensures -1 <= r < |s|
    ensures r >= 0 ==> s[r] == c
    ensures forall k | r < k < |s| :: s[k] != c
    ensures r == -1 <==> c !in s
  {
    RFindBefore(s, c, |s|)
  }

  /** The last occurrence of `c` among the first `n` characters of `s`, or -1. */
  function RFindBefore(s: string, c: char, n: nat): (r: int)
    requires n <= |s|
    ensures -1 <= r < n
    ensures r >= 0 ==> s[r] == c
    ensures forall k | r < k < n :: s[k] != c
    decreases n
  {
    if n == 0 then -1
    else if s[n - 1] == c then n - 1
    else RFindBefore(s, c, n - 1)
  }

  /** The text after the last `c`: `s.rsplit(c, 1)[-1]`, the whole string when `c` does not occur. */
  function AfterLast(s: string, c: char): (r: string)
    ensures c !in r && EndsWith(s, r)
  {
    s[RFind(s, c) + 1..]
  }

  /** What comes before the result is `c` when `c` occurs at all, and nothing otherwise. */
  lemma AfterLastSpec(s: string, c: char)
    ensures var r := AfterLast(s, c);
      && (c in s ==> |r| < |s| && s[|s| - |r| - 1] == c)
      && (c !in s ==> r == s)
  {
  }

  /** The three facts RFind promises determine it: any index with them is the result. */
  lemma RFindUnique(s: string, c: char, r: int)
    requires -1 <= r < |s|
    requires r >= 0 ==> s[r] == c
    requires forall k | r < k < |s| :: s[k] != c
    ensures RFind(s, c) == r
  {
  }

  /** Searching a concatenation from the right finds the occurrence in the right part first. */
  lemma RFindAppend(a: string, b: string, c: char)
    ensures RFind(a + b, c) == if c in b then |a| + RFind(b, c) else RFind(a, c)
  {
    if c in b {
      RFindAppendRight(a, b, c);
    } else {
      RFindAppendLeft(a, b, c);
    }
  }

  lemma RFindAppendRight(a: string, b: string, c: char)
    requires c in b
    ensures RFind(a + b, c) == |a| + RFind(b, c)
  {
    var s := a + b;
    var rb := RFind(b, c);
    assert 0 <= rb < |b|;
    var r := |a| + rb;
    assert s[r] == c;
    forall k | r < k < |s|
      ensures s[k] != c
    {
      assert s[k] == b[k - |a|];
    }
    RFindUnique(s, c, r);
  }

  lemma RFindAppendLeft(a: string, b: string, c: char)
    requires c !in b
    ensures RFind(a + b, c) == RFind(a, c)
  {
    var s := a + b;
    var ra := RFind(a, c);
    assert ra >= 0 ==> s[ra] == a[ra];
    forall k | ra < k < |s|
      ensures s[k] != c
    {
      if k < |a| {
        assert s[k] == a[k];
      } else {
        assert s[k] == b[k - |a|];
      }
    }
    RFindUnique(s, c, ra);
  }

  /** `s.lstrip()`: drops the longest whitespace prefix. */
  function StripLeft(s: string): (r: string)
    ensures |r| <= |s| && r == s[|s| - |r|..]
    ensures forall k | 0 <= k < |s| - |r| :: IsSpace(s[k])
    ensures r == [] || !IsSpace(r[0])
  {
    if |s| > 0 && IsSpace(s[0]) then StripLeft(s[1..]) else s
  }

  /** `s.rstrip()`: drops the longest whitespace suffix. */
  function StripRight(s: string): (r: string)
    ensures |r| <= |s| && r == s[..|r|]
    ensures forall k | |r| <= k < |s| :: IsSpace(s[k])
    ensures r == [] || !IsSpace(r[|r| - 1])
  {
    if |s| > 0 && IsSpace(s[|s| - 1]) then StripRight(s[..|s| - 1]) else s
  }

  /** `r` is what `s.strip()` returns: the slice of `s` left after removing every
      leading and trailing whitespace character, and nothing more. */
  ghost predicate IsStripOf(s: string, r: string) {
    exists i, j :: StripAt(s, r, i, j)
  }

  /** `r` is `s[i..j]`, with only whitespace before `i` and from `j` on, and none at
      either end of `r`. */
  ghost predicate StripAt(s: string, r: string, i: int, j: int) {
    && 0 <= i <= j <= |s|
    && r == s[i..j]
    && (forall k | 0 <= k < i :: IsSpace(s[k]))
    && (forall k | j <= k < |s| :: IsSpace(s[k]))
    && (r == [] || (!IsSpace(r[0]) && !IsSpace(r[|r| - 1])))
  }

  /** `s.strip()`. */
  function Strip(s: string): string {
    StripRight(StripLeft(s))
  }

  /** A string with no whitespace at either end is its own strip. */
  lemma StripTrimmed(s: string)
    requires s == [] || (!IsSpace(s[0]) && !IsSpace(s[|s| - 1]))
    ensures Strip(s) == s
  {
  }

  /** Strip removes exactly the whitespace at both ends. */
  lemma StripSpec(s: string)
    ensures IsStripOf(s, Strip(s))
  {
    var l := StripLeft(s);
    var r := StripRight(l);
    assert StripAt(s, r, |s| - |l|, |s| - |l| + |r|) by {
      StripAtWitness(s, l, r);
    }
    assert Strip(s) == r;
  }

  /** Dropping a whitespace prefix and then a whitespace suffix leaves a strip of `s`. */
  lemma StripAtWitness(s: string, l: string, r: string)
    requires |l| <= |s| && l == s[|s| - |l|..]
    requires forall k | 0 <= k < |s| - |l| :: IsSpace(s[k])
    requires l == [] || !IsSpace(l[0])
    requires |r| <= |l| && r == l[..|r|]
    requires forall k | |r| <= k < |l| :: IsSpace(l[k])
    requires r == [] || !IsSpace(r[|r| - 1])
    ensures StripAt(s, r, |s| - |l|, |s| - |l| + |r|)
  {
    var i := |s| - |l|;
    var j := i + |r|;
    assert r == s[i..j] by {
      assert forall t | 0 <= t < |r| :: r[t] == l[t] == s[i + t];
    }
    forall k | j <= k < |s|
      ensures IsSpace(s[k])
    {
      assert s[k] == l[k - i];
    }
    if r != [] {
      assert r[0] == l[0];
    }
  }

  /** Stripping leaves nothing exactly when every character is whitespace. */
  lemma StripEmptyIffAllSpace(s: string)
    ensures Strip(s) == [] <==> forall k | 0 <= k < |s| :: IsSpace(s[k])
  {
    var r := Strip(s);
    StripSpec(s);
    var i, j :| StripAt(s, r, i, j);
    if r != [] {
      assert !IsSpace(s[i]);
    }
  }
}

=== FILE: routes.dfy ===
/** The request handlers of app/routes.py as transitions over the browser's session
    map and the process's chat-context holder. Each handler returns the HTTP status
    and JSON body, the new state, and the path of the file it stored, if any. */
module Routes {
  import opened Wrappers
  import opened PyText
  import opened Json
  import opened PosixPath
  import Utils
  import MockBedrock
  import BedrockClient
  import opened SimpleChatbot

  /** The cookie-backed session: string keys to JSON values. */
  type Session = map<string, Json>

  datatype Response = Response(status: int, body: Json)

  /** The model client chosen at start-up: the canned one, or the live one with its
      remote call and JSON decoder. */
  datatype Client =
    | Mock
    | Live(config: BedrockClient.Config, invoke: BedrockClient.Invoker, parse: BedrockClient.Parser)

  /** `bedrock_client.extract_invoice_data(path, prompt)`. */
  function Extract(client: Client, imagePath: string, prompt: string): (r: Json)
    ensures r.JObj? && "extraction_successful" in r.fields
  {
    match client
    case Mock => MockBedrock.ExtractInvoiceData(imagePath, prompt)
    case Live(cfg, invoke, parse) => BedrockClient.ExtractInvoiceData(cfg, imagePath, prompt, invoke, parse)
  }

  /** `bedrock_client.chat_with_claude(question, context)`. */
  function Chat(client: Client, question: string, context: string): string {
    match client
    case Mock => MockBedrock.ChatWithClaude(question, context)
    case Live(cfg, invoke, _) => BedrockClient.ChatWithClaude(cfg, question, context, invoke)
  }

  /** Process-wide collaborators: the client, the upload folder, werkzeug's
      `secure_filename`, Python's `str()` and `format_json_for_display`. */
  datatype Deps = Deps(
    client: Client,
    uploadFolder: string,
    secureFilename: string -> string,
    show: Json -> string,
    format: Json -> string)

  /** What one upload meets in the outside world: the clock, the prompt file's text
      (None when reading it raises), the exception text if writing the file fails,
      and the random session id `os.urandom(16).hex()` would produce. */
  datatype UploadInputs = UploadInputs(
    timestamp: string,
    promptFile: Option<string>,
    saveError: Option<string>,
    newSessionId: string)

  /** POST `/upload` carries the multipart file fields (field name to client file name). */
  datatype UploadRequest = UploadOptions | UploadPost(files: map<string, string>)

  /** POST `/chat/message` carries the decoded JSON body. */
  datatype ChatRequest = ChatOptions | ChatPost(body: Json)

  datatype State = State(session: Session, chatbot: Chatbot)

  datatype Outcome = Outcome(response: Response, state: State, saved: Option<string>)

  const PreflightBody: Json := JObj(map["status" := JStr("OK")])

  function ErrorBody(message: string): Json {
    JObj(map["success" := JBool(false), "error" := JStr(message)])
  }

  const NoFileUploaded: string := "No file uploaded"
  const NoFileSelected: string := "No file selected"
  const InvalidFileType: string :=
    "Invalid file type. Please upload an image file (PNG, JPG, JPEG, GIF, BMP, WEBP)"
  const UploadErrorPrefix: string := "Error processing file: "
  const UploadsUrlPrefix: string := "/uploads/"

  /** The session keys a successful upload writes. */
  const UploadKeys: set<string> := {"invoice_data", "invoice_file", "invoice_file_path", "session_id"}

  /** `extracted_data.get('extraction_successful', True)`. */
  function ExtractionFlag(data: Json): Json
    requires data.JObj?
  {
    Get(data.fields, "extraction_successful", JBool(true))
  }

  /** The session after storing an extraction result for the file at `path`: the three
      invoice keys, then the session id. */
  function StoreUpload(session: Session, data: Json, path: string, newSessionId: string): Session {
    KeepSessionId(StoreFile(session, data, path), newSessionId)
  }

  /** The invoice keys an upload writes. */
  const FileKeys: set<string> := {"invoice_data", "invoice_file", "invoice_file_path"}

  /** The extraction result, the saved file's base name and its full path. */
  function StoreFile(session: Session, data: Json, path: string): Session {
    session["invoice_data" := data]["invoice_file" := JStr(Basename(path))]["invoice_file_path" := JStr(path)]
  }

  /** `session['session_id'] = session.get('session_id', fresh)`. */
  function KeepSessionId(session: Session, newSessionId: string): Session {
    session["session_id" := Get(session, "session_id", JStr(newSessionId))]
  }

  lemma StoreFileWrites(session: Session, data: Json, path: string)
    ensures
      var s := StoreFile(session, data, path);
      && "invoice_data" in s && s["invoice_data"] == data
      && "invoice_file" in s && s["invoice_file"] == JStr(Basename(path))
      && "invoice_file_path" in s && s["invoice_file_path"] == JStr(path)
  {
    UploadKeysDistinct();
  }

  lemma StoreFileKeeps(session: Session, data: Json, path: string)
    ensures
      var s := StoreFile(session, data, path);
      && s.Keys == session.Keys + FileKeys
      && forall k | k in session && k !in FileKeys :: s[k] == session[k]
  {
  }

  /** The id is kept when there is one and the fresh one is written otherwise; nothing
      else changes. */
  lemma KeepSessionIdWrites(session: Session, newSessionId: string)
    ensures
      var s := KeepSessionId(session, newSessionId);
      && "session_id" in s
      && ("session_id" in session ==> s["session_id"] == session["session_id"])
      && ("session_id" !in session ==> s["session_id"] == JStr(newSessionId))
      && s.Keys == session.Keys + {"session_id"}
      && forall k | k in session && k != "session_id" :: s[k] == session[k]
  {
  }

  /** Storing an upload writes the data, the saved file's base name and full path, and a
      session id that is the existing one when there is one and the fresh one otherwise. */
  lemma StoreUploadWrites(session: Session, data: Json, path: string, newSessionId: string)
    ensures
      var s := StoreUpload(session, data, path, newSessionId);
      && "invoice_data" in s && s["invoice_data"] == data
      && "invoice_file" in s && s["invoice_file"] == JStr(Basename(path))
      && "invoice_file_path" in s && s["invoice_file_path"] == JStr(path)
      && "session_id" in s
      && ("session_id" in session ==> s["session_id"] == session["session_id"])
      && ("session_id" !in session ==> s["session_id"] == JStr(newSessionId))
  {
    var f := StoreFile(session, data, path);
    StoreFileWrites(session, data, path);
    StoreFileKeeps(session, data, path);
    KeepSessionIdWrites(f, newSessionId);
    UploadKeysDistinct();
  }

  /** The four upload keys are different strings. */
  lemma UploadKeysDistinct()
    ensures "invoice_data" != "invoice_file" && "invoice_data" != "invoice_file_path"
    ensures "invoice_data" != "session_id" && "invoice_file" != "invoice_file_path"
    ensures "invoice_file" != "session_id" && "invoice_file_path" != "session_id"
  {
    assert "invoice_data"[8] == 'd' && "invoice_file"[8] == 'f';
    assert |"invoice_data"| == 12 && |"invoice_file_path"| == 17 && |"session_id"| == 10;
  }

  /** Storing an upload adds exactly the four upload keys and leaves every other key as it was. */
  lemma StoreUploadKeeps(session: Session, data: Json, path: string, newSessionId: string)
    ensures
      var s := StoreUpload(session, data, path, newSessionId);
      && s.Keys == session.Keys + UploadKeys
      && forall k | k in session && k !in UploadKeys :: s[k] == session[k]
  {
    StoreFileKeeps(session, data, path);
    KeepSessionIdWrites(StoreFile(session, data, path), newSessionId);
  }

  /** The body of a successful upload. */
  function UploadBody(data: Json, formatted: string, name: string): (r: Json)
    ensures r.JObj? && r.fields.Keys == {"success", "data", "formatted_data", "image_url", "invoice_file"}
    ensures "data" in r.fields && "invoice_file" in r.fields && "image_url" in r.fields
    ensures r.fields["success"] == JBool(true) && r.fields["data"] == data
    ensures r.fields["invoice_file"] == JStr(name) && r.fields["image_url"] == JStr(UploadsUrlPrefix + name)
  {
    JObj(map[
      "success" := JBool(true),
      "data" := data,
      "formatted_data" := JStr(formatted),
      "image_url" := JStr(UploadsUrlPrefix + name),
      "invoice_file" := JStr(name)
    ])
  }

  /** The checks `upload_invoice` makes before saving, in order. */
  predicate UploadAccepted(files: map<string, string>) {
    && "invoice_file" in files
    && files["invoice_file"] != ""
    && Utils.AllowedFile(files["invoice_file"], Utils.DefaultExtensions)
  }

  /** The part of `upload_invoice` after the file is written: load the prompt, extract,
      store the result in the session, refresh the holder, answer 200. */
  function StoreInvoice(deps: Deps, st: State, path: string, io: UploadInputs): (o: Outcome)
    ensures o.saved == Some(path) && o.response.status == 200
    // the session gets the four upload keys for the extracted data (see StoreUpload)
    ensures "invoice_data" in o.state.session && o.state.session["invoice_data"].JObj?
    ensures o.state.session == StoreUpload(st.session, o.state.session["invoice_data"], path, io.newSessionId)
    // the holder is updated only when the result does not report failure
    ensures
      var data := o.state.session["invoice_data"];
      o.state.chatbot == (if Truthy(ExtractionFlag(data)) then UpdateInvoiceData(st.chatbot, data) else st.chatbot)
    ensures o.response.body.JObj? && "data" in o.response.body.fields
    ensures o.response.body.fields["data"] == o.state.session["invoice_data"]
    ensures o.response.body == UploadBody(o.state.session["invoice_data"], deps.format(o.state.session["invoice_data"]), Basename(path))
  {
    var prompt := Utils.LoadPromptTemplate(io.promptFile);
    var data := Extract(deps.client, path, prompt);
    var bot := if Truthy(ExtractionFlag(data)) then UpdateInvoiceData(st.chatbot, data) else st.chatbot;
    var session := StoreUpload(st.session, data, path, io.newSessionId);
    StoreUploadWrites(st.session, data, path, io.newSessionId);
    var body := UploadBody(data, deps.format(data), Basename(path));
    Outcome(Response(200, body), State(session, bot), Some(path))
  }

  /** The path an upload of `files` is written to. */
  function SavedPath(deps: Deps, files: map<string, string>, io: UploadInputs): string
    requires "invoice_file" in files
  {
    Utils.SaveUploadedFile(deps.uploadFolder, files["invoice_file"], deps.secureFilename, io.timestamp)
  }

  /** What the client extracts from the file at `path` with the loaded prompt. */
  function Extracted(deps: Deps, path: string, io: UploadInputs): Json {
    Extract(deps.client, path, Utils.LoadPromptTemplate(io.promptFile))
  }

  /** The stored invoice data is the extraction result for the saved file. */
  lemma StoreInvoiceStoresExtraction(deps: Deps, st: State, path: string, io: UploadInputs)
    ensures StoreInvoice(deps, st, path, io).state.session["invoice_data"] == Extracted(deps, path, io)
  {
    StoreUploadWrites(st.session, Extracted(deps, path, io), path, io.newSessionId);
  }

  /** The stored file name is the base name of the saved path. */
  lemma StoreInvoiceStoresName(deps: Deps, st: State, path: string, io: UploadInputs)
    ensures StoreInvoice(deps, st, path, io).state.session["invoice_file"] == JStr(Basename(path))
  {
    StoreUploadWrites(st.session, Extracted(deps, path, io), path, io.newSessionId);
    StoreInvoiceStoresExtraction(deps, st, path, io);
  }

  /** `upload_invoice`. */
  function UploadInvoice(deps: Deps, st: State, req: UploadRequest, io: UploadInputs): (o: Outcome)
    ensures req.UploadOptions? ==> o == Outcome(Response(200, PreflightBody), st, None)
    // the guards, in order, each answer 400 and store nothing
    ensures req.UploadPost? && "invoice_file" !in req.files ==>
      o == Outcome(Response(400, ErrorBody(NoFileUploaded)), st, None)
    ensures req.UploadPost? && "invoice_file" in req.files && req.files["invoice_file"] == "" ==>
      o == Outcome(Response(400, ErrorBody(NoFileSelected)), st, None)
    ensures (req.UploadPost? && "invoice_file" in req.files && req.files["invoice_file"] != "" &&
             !Utils.AllowedFile(req.files["invoice_file"], Utils.DefaultExtensions)) ==>
      o == Outcome(Response(400, ErrorBody(InvalidFileType)), st, None)
    ensures (req.UploadPost? && UploadAccepted(req.files) && io.saveError.Some?) ==>
      o == Outcome(Response(500, ErrorBody(UploadErrorPrefix + io.saveError.value)), st, None)
    // a file is stored exactly when every guard passes and the write succeeds, under
    // the name the saving helper chooses
    ensures o.saved.Some? <==> req.UploadPost? && UploadAccepted(req.files) && io.saveError.None?
    ensures o.saved.Some? ==> o.saved.value == SavedPath(deps, req.files, io)
    ensures o.saved.Some? ==> o == StoreInvoice(deps, st, o.saved.value, io)
    ensures o.saved.None? ==> o.state == st
    ensures o.response.status == 200 <==> req.UploadOptions? || o.saved.Some?
  {
    match req
    case UploadOptions => Outcome(Response(200, PreflightBody), st, None)
    case UploadPost(files) =>
      if "invoice_file" !in files then
        Outcome(Response(400, ErrorBody(NoFileUploaded)), st, None)
      else if files["invoice_file"] == "" then
        Outcome(Response(400, ErrorBody(NoFileSelected)), st, None)
      else if !Utils.AllowedFile(files["invoice_file"], Utils.DefaultExtensions) then
        Outcome(Response(400, ErrorBody(InvalidFileType)), st, None)
      else if io.saveError.Some? then
        Outcome(Response(500, ErrorBody(UploadErrorPrefix + io.saveError.value)), st, None)
      else
        StoreInvoice(deps, st, SavedPath(deps, files, io), io)
  }

  const NoMessageProvided: string := "No message provided"
  const EmptyMessage: string := "Empty message"
  const NoInvoiceData: string := "No invoice data available. Please upload an invoice first."
  const ChatRouteErrorPrefix: string := "Error processing message: "

  /** What `not data or 'message' not in data` and `data['message'].strip()` give for a
      request body: no message, the stripped message, or the text of the exception raised. */
  datatype MessageRead = NoMessage | Message(text: string) | Raised(error: string)

  function ReadMessage(body: Json): (r: MessageRead)
    ensures r.Message? <==>
      body.JObj? && "message" in body.fields && body.fields["message"].JStr?
    ensures r.Message? ==> IsStripOf(body.fields["message"].s, r.text)
    ensures body.JObj? ==> (r.NoMessage? <==> "message" !in body.fields)
    ensures !Truthy(body) ==> r == NoMessage
    // `'message' not in data` on a truthy non-object: element test, substring test, or TypeError
    ensures body.JArr? && Truthy(body) ==> (r.NoMessage? <==> JStr("message") !in body.items)
    ensures body.JStr? && Truthy(body) ==> (r.NoMessage? <==> !Contains(body.s, "message"))
    ensures (body.JInt? || body.JDec? || body.JBool?) && Truthy(body) ==> r.Raised?
  {
    if !Truthy(body) then NoMessage
    else match body
      case JObj(m) =>
        if "message" !in m then NoMessage
        else if m["message"].JStr? then StripSpec(m["message"].s); Message(Strip(m["message"].s))
        else Raised("'" + TypeName(m["message"]) + "' object has no attribute 'strip'")
      case JArr(xs) =>
        if JStr("message") !in xs then NoMessage
        else Raised("list indices must be integers or slices, not str")
      case JStr(s) =>
        if !Contains(s, "message") then NoMessage
        else Raised("string indices must be integers, not 'str'")
      case _ => Raised("argument of type '" + TypeName(body) + "' is not iterable")
  }

  function ChatBody(answer: string, session: Session): (r: Json)
    ensures r.JObj? && r.fields.Keys == {"success", "response", "invoice_file"}
    ensures "success" in r.fields && "response" in r.fields && "invoice_file" in r.fields
    ensures r.fields["success"] == JBool(true) && r.fields["response"] == JStr(answer)
    ensures r.fields["invoice_file"] == Get(session, "invoice_file", JStr("Unknown"))
  {
    JObj(map[
      "success" := JBool(true),
      "response" := JStr(answer),
      "invoice_file" := Get(session, "invoice_file", JStr("Unknown"))
    ])
  }

  /** `chat_message`. It never changes the session or the holder. */
  function ChatMessage(deps: Deps, st: State, req: ChatRequest): (o: Outcome)
    ensures o.state == st && o.saved.None?
    ensures req.ChatOptions? ==> o.response == Response(200, PreflightBody)
    // the guards, in order; an answer is given exactly when a non-blank message meets
    // stored invoice data
    ensures req.ChatPost? ==>
      var m := ReadMessage(req.body);
      var stored := Truthy(Get(st.session, "invoice_data", JNull));
      && (m.NoMessage? ==> o.response == Response(400, ErrorBody(NoMessageProvided)))
      && (m.Raised? ==> o.response == Response(500, ErrorBody(ChatRouteErrorPrefix + m.error)))
      && (m.Message? && m.text == "" ==> o.response == Response(400, ErrorBody(EmptyMessage)))
      && (m.Message? && m.text != "" && !stored ==> o.response == Response(400, ErrorBody(NoInvoiceData)))
      && (o.response.status == 200 <==> m.Message? && m.text != "" && stored)
  {
    match req
    case ChatOptions => Outcome(Response(200, PreflightBody), st, None)
    case ChatPost(body) =>
      match ReadMessage(body)
      case NoMessage => Outcome(Response(400, ErrorBody(NoMessageProvided)), st, None)
      case Raised(e) => Outcome(Response(500, ErrorBody(ChatRouteErrorPrefix + e)), st, None)
      case Message(text) =>
        if text == "" then Outcome(Response(400, ErrorBody(EmptyMessage)), st, None)
        else if !Truthy(Get(st.session, "invoice_data", JNull)) then
          Outcome(Response(400, ErrorBody(NoInvoiceData)), st, None)
        else
          var context := ContextForQuestion(st.chatbot, text, deps.show);
          Outcome(Response(200, ChatBody(Chat(deps.client, text, context), st.session)), st, None)
  }

  /** An answered message gets the success body: the client's reply to the stripped
      message, asked with the holder's context, and the session's file name. */
  lemma ChatAnswerBody(deps: Deps, st: State, body: Json)
    ensures
      var o := ChatMessage(deps, st, ChatPost(body));
      var m := ReadMessage(body);
      o.response.status == 200 ==>
        && m.Message?
        && o.response.body == ChatBody(Chat(deps.client, m.text, ContextForQuestion(st.chatbot, m.text, deps.show)), st.session)
  {
  }

  /** A falsy decoded body (`null`, `{}`, `[]`, `""`, `0`, `false`) is refused with 400. */
  lemma FalsyBodyRefused(deps: Deps, st: State, body: Json)
    requires !Truthy(body)
    ensures ChatMessage(deps, st, ChatPost(body)).response == Response(400, ErrorBody(NoMessageProvided))
  {
  }

  /** The name stored in the session is the saved name: the sanitised client name with
      the time stamp put before its extension, which it keeps (when the sanitiser leaves
      no '/' and the clock gives a `YYYYMMDD_HHMMSS` stamp). */
  lemma UploadStoresSavedName(deps: Deps, st: State, files: map<string, string>, io: UploadInputs)
    requires UploadAccepted(files) && io.saveError.None?
    requires '/' !in deps.secureFilename(files["invoice_file"]) && Utils.IsTimestamp(io.timestamp)
    ensures
      var o := UploadInvoice(deps, st, UploadPost(files), io);
      var safe := deps.secureFilename(files["invoice_file"]);
      && o.state.session["invoice_file"] == JStr(Utils.SavedName(safe, io.timestamp))
      && SplitExt(o.state.session["invoice_file"].s).1 == SplitExt(safe).1
  {
    StoreInvoiceStoresSavedName(deps, st, files, io);
  }

  /** The store step on the saved path records the time-stamped saved name. */
  lemma StoreInvoiceStoresSavedName(deps: Deps, st: State, files: map<string, string>, io: UploadInputs)
    requires "invoice_file" in files
    requires '/' !in deps.secureFilename(files["invoice_file"]) && Utils.IsTimestamp(io.timestamp)
    ensures
      var o := StoreInvoice(deps, st, SavedPath(deps, files, io), io);
      var safe := deps.secureFilename(files["invoice_file"]);
      && o.state.session["invoice_file"] == JStr(Utils.SavedName(safe, io.timestamp))
      && SplitExt(o.state.session["invoice_file"].s).1 == SplitExt(safe).1
  {
    var safe := deps.secureFilename(files["invoice_file"]);
    StoreInvoiceStoresName(deps, st, SavedPath(deps, files, io), io);
    Utils.SaveUploadedFileBasename(deps.uploadFolder, files["invoice_file"], deps.secureFilename, io.timestamp);
    Utils.TimestampHasNoSeparators(io.timestamp);
    Utils.SavedNameKeepsExtension(safe, io.timestamp);
  }

  /** With the canned client, an accepted upload feeds the holder with exactly the data
      stored in the session, and status then reports the invoice (so chat is enabled;
      see ChatAfterUpload). */
  lemma MockUploadFeedsChat(deps: Deps, st: State, files: map<string, string>, io: UploadInputs)
    requires deps.client == Mock && UploadAccepted(files) && io.saveError.None?
    ensures
      var up := UploadInvoice(deps, st, UploadPost(files), io);
      && up.response.status == 200
      && up.state.chatbot.invoiceData == up.state.session["invoice_data"]
      && Truthy(Get(up.state.session, "invoice_data", JNull))
      && Status(deps, up.state).response.body.fields["has_invoice"] == JBool(true)
  {
    var path := SavedPath(deps, files, io);
    MockExtractionSucceeds(path, Utils.LoadPromptTemplate(io.promptFile));
    StoreInvoiceStoresExtraction(deps, st, path, io);
  }

  /** The canned extraction is a non-empty object that reports success. */
  lemma MockExtractionSucceeds(imagePath: string, prompt: string)
    ensures Truthy(Extract(Mock, imagePath, prompt))
    ensures Truthy(ExtractionFlag(Extract(Mock, imagePath, prompt)))
  {
    var data := Extract(Mock, imagePath, prompt);
    assert data.fields["extraction_successful"] == JBool(true);
    assert "extraction_successful" in data.fields;
  }

  /** A trimmed question about the total, asked of the canned client while the session
      holds invoice data, gets the canned total answer. */
  lemma ChatAfterUpload(deps: Deps, st: State, question: string)
    requires deps.client == Mock && Truthy(Get(st.session, "invoice_data", JNull))
    requires question != [] && !IsSpace(question[0]) && !IsSpace(question[|question| - 1])
    requires Contains(Lower(question), "total")
    ensures
      var chat := Step(deps, st, ChatRequestOf(ChatPost(JObj(map["message" := JStr(question)]))));
      && chat.response.status == 200
      && chat.response.body.fields["response"] == JStr(MockBedrock.TotalAnswer)
      && chat.response.body.fields["invoice_file"] == Get(st.session, "invoice_file", JStr("Unknown"))
  {
    var st' := State(MarkPermanent(st.session), st.chatbot);
    var body := JObj(map["message" := JStr(question)]);
    StripTrimmed(question);
    assert ReadMessage(body) == Message(question);
    assert Get(st'.session, "invoice_data", JNull) == Get(st.session, "invoice_data", JNull);
    assert Get(st'.session, "invoice_file", JStr("Unknown")) == Get(st.session, "invoice_file", JStr("Unknown"));
    var context := ContextForQuestion(st'.chatbot, question, deps.show);
    MockBedrock.MockTotalAnswer(question, context);
    assert ChatMessage(deps, st', ChatPost(body)).response == Response(200, ChatBody(MockBedrock.TotalAnswer, st'.session));
  }

  /** When the live model call fails, the upload still answers 200 and stores the
      failure record as the invoice data; the holder keeps whatever it had, and the
      session counts as holding an invoice, so chat goes on to answer from the old
      context. */
  lemma FailedLiveExtraction(deps: Deps, st: State, files: map<string, string>, io: UploadInputs)
    requires deps.client.Live? && UploadAccepted(files) && io.saveError.None?
    requires
      var request := BedrockClient.ExtractionRequest(deps.client.config, SavedPath(deps, files, io), Utils.LoadPromptTemplate(io.promptFile));
      deps.client.invoke(request).Failure?
    ensures
      var o := UploadInvoice(deps, st, UploadPost(files), io);
      && o.response.status == 200
      && o.state.chatbot == st.chatbot
      && o.state.session["invoice_data"].fields["extraction_successful"] == JBool(false)
      && Truthy(o.state.session["invoice_data"])
      && Status(deps, o.state).response.body.fields["has_invoice"] == JBool(true)
  {
    var path := SavedPath(deps, files, io);
    var data := Extracted(deps, path, io);
    assert data.fields["extraction_successful"] == JBool(false);
    assert Truthy(data) by {
      assert "extraction_successful" in data.fields;
    }
    StoreInvoiceStoresExtraction(deps, st, path, io);
  }

  /** A message of whitespace only is refused as empty, before the session is looked at. */
  lemma BlankMessageRefused(deps: Deps, st: State, message: string)
    requires forall k | 0 <= k < |message| :: IsSpace(message[k])
    ensures ChatMessage(deps, st, ChatPost(JObj(map["message" := JStr(message)])))
         == Outcome(Response(400, ErrorBody(EmptyMessage)), st, None)
  {
    StripEmptyIffAllSpace(message);
  }

  /** Python's `str()` of a session value inside an f-string. */
  function PyStr(j: Json, show: Json -> string): string {
    if j.JStr? then j.s else show(j)
  }

  /** The `/upload`-relative address of a stored file name, when there is one. */
  function ImageUrl(file: Json, show: Json -> string): (r: Json)
    ensures file.JStr? && file.s != "" ==> r == JStr(UploadsUrlPrefix + file.s)
    ensures !Truthy(file) <==> r == JNull
  {
    if Truthy(file) then JStr(UploadsUrlPrefix + PyStr(file, show)) else JNull
  }

  /** `status`: whether the session holds invoice data, and the stored file's name and address. */
  function Status(deps: Deps, st: State): (o: Outcome)
    ensures o.state == st && o.saved.None? && o.response.status == 200
    ensures o.response.body.JObj?
    ensures "has_invoice" in o.response.body.fields && "invoice_file" in o.response.body.fields
    ensures "image_url" in o.response.body.fields
    ensures o.response.body.fields["has_invoice"] == JBool("invoice_data" in st.session)
    ensures o.response.body.fields["invoice_file"] == Get(st.session, "invoice_file", JNull)
    ensures ("invoice_file" in st.session && st.session["invoice_file"].JStr? && st.session["invoice_file"].s != "") ==>
      o.response.body.fields["image_url"] == JStr(UploadsUrlPrefix + st.session["invoice_file"].s)
    ensures !Truthy(Get(st.session, "invoice_file", JNull)) <==> o.response.body.fields["image_url"] == JNull
  {
    var file := Get(st.session, "invoice_file", JNull);
    var body := map[
      "success" := JBool(true),
      "has_invoice" := JBool("invoice_data" in st.session),
      "invoice_file" := file,
      "image_url" := ImageUrl(file, deps.show)
    ];
    assert "has_invoice" in body && "invoice_file" in body && "image_url" in body;
    Outcome(Response(200, JObj(body)), st, None)
  }

  /** `clear_session`: the session is emptied; the process-wide holder keeps its data. */
  function ClearSession(st: State): (o: Outcome)
    ensures o.state.session == map[] && o.state.chatbot == st.chatbot
    ensures o.response.status == 200 && o.saved.None?
  {
    Outcome(Response(200, JObj(map[
      "success" := JBool(true),
      "message" := JStr("Session cleared successfully")
    ])), State(map[], st.chatbot), None)
  }

  /** One request of the JSON interface. */
  datatype Request =
    | Upload(upload: UploadRequest, inputs: UploadInputs)
    | ChatRequestOf(chat: ChatRequest)
    | GetStatus
    | Clear

  /** `make_session_permanent`, run before every request: `session.permanent = True`
      stores the flag under the key "_permanent". */
  function MarkPermanent(session: Session): Session {
    session["_permanent" := JBool(true)]
  }

  /** Handling one request: the before-request hook, then the route. */
  function Step(deps: Deps, st: State, req: Request): Outcome {
    var st' := State(MarkPermanent(st.session), st.chatbot);
    match req
    case Upload(u, io) => UploadInvoice(deps, st', u, io)
    case ChatRequestOf(c) => ChatMessage(deps, st', c)
    case GetStatus => Status(deps, st')
    case Clear => ClearSession(st')
  }

  /** The state after a series of requests from one browser. */
  function Run(deps: Deps, st: State, reqs: seq<Request>): State
    decreases |reqs|
  {
    if reqs == [] then st else Run(deps, Step(deps, st, reqs[0]).state, reqs[1..])
  }

  /** The session shape every handler keeps: only known keys; the invoice data, the
      file name and the file path are present together, with the session id; and the
      stored name is the base name of the stored path. */
  predicate WellFormed(s: Session) {
    && s.Keys <= UploadKeys + {"_permanent"}
    && ("invoice_data" in s <==> "invoice_file" in s)
    && ("invoice_data" in s <==> "invoice_file_path" in s)
    && ("invoice_data" in s ==> "session_id" in s)
    && ("invoice_file" in s ==>
          && s["invoice_file"].JStr?
          && s["invoice_file_path"].JStr?
          && s["invoice_file"].s == Basename(s["invoice_file_path"].s))
  }

  lemma StepPreservesWellFormed(deps: Deps, st: State, req: Request)
    requires WellFormed(st.session)
    ensures WellFormed(Step(deps, st, req).state.session)
  {
    var st' := State(MarkPermanent(st.session), st.chatbot);
    MarkPermanentKeepsWellFormed(st.session);
    match req
    case Upload(u, io) => UploadKeepsWellFormed(deps, st', u, io);
    case ChatRequestOf(c) =>
    case GetStatus =>
    case Clear =>
  }

  /** The before-request flag is a known key and touches no other. */
  lemma MarkPermanentKeepsWellFormed(s: Session)
    requires WellFormed(s)
    ensures WellFormed(MarkPermanent(s))
  {
    MarkPermanentKeeps(s);
  }

  /** The flag is not one of the upload keys, so they keep their presence and values. */
  lemma MarkPermanentKeeps(s: Session)
    ensures forall k | k in UploadKeys :: (k in MarkPermanent(s) <==> k in s)
    ensures forall k | k in UploadKeys && k in s :: MarkPermanent(s)[k] == s[k]
  {
    assert "_permanent" !in UploadKeys by {
      assert |"_permanent"| == 10 && "_permanent"[0] == '_' && "session_id"[0] == 's';
    }
  }

  /** An upload either leaves the session alone or stores all four keys at once. */
  lemma UploadKeepsWellFormed(deps: Deps, st: State, req: UploadRequest, io: UploadInputs)
    requires WellFormed(st.session)
    ensures WellFormed(UploadInvoice(deps, st, req, io).state.session)
  {
    var o := UploadInvoice(deps, st, req, io);
    if o.saved.Some? {
      StoreUploadKeepsWellFormed(st.session, o.state.session["invoice_data"], o.saved.value, io.newSessionId);
    }
  }

  /** Storing an upload into a well-formed session leaves it well-formed. */
  lemma StoreUploadKeepsWellFormed(session: Session, data: Json, path: string, newSessionId: string)
    requires WellFormed(session)
    ensures WellFormed(StoreUpload(session, data, path, newSessionId))
  {
    StoreUploadWrites(session, data, path, newSessionId);
    StoreUploadKeeps(session, data, path, newSessionId);
  }

  /** Starting from a well-formed session (the empty one included), every series of
      requests leaves it well-formed. */
  lemma {:induction false} RunPreservesWellFormed(deps: Deps, st: State, reqs: seq<Request>)
    requires WellFormed(st.session)
    ensures WellFormed(Run(deps, st, reqs).session)
    decreases |reqs|
  {
    if reqs != [] {
      StepPreservesWellFormed(deps, st, reqs[0]);
      RunPreservesWellFormed(deps, Step(deps, st, reqs[0]).state, reqs[1..]);
    }
  }

  /** After a clear, the next status call reports no invoice and no file, and a chat
      body with a string `message` gets 400 (see NoAnswerAfterClear for every body). */
  lemma AfterClear(deps: Deps, st: State, message: string)
    ensures var cleared := Step(deps, st, Clear).state;
      && cleared.session == map[]
      && Step(deps, cleared, GetStatus).response.body.fields["has_invoice"] == JBool(false)
      && Step(deps, cleared, GetStatus).response.body.fields["invoice_file"] == JNull
      && Step(deps, cleared, GetStatus).response.body.fields["image_url"] == JNull
      && Step(deps, cleared, ChatRequestOf(ChatPost(JObj(map["message" := JStr(message)])))).response.status == 400
  {
    var cleared := Step(deps, st, Clear).state;
    StatusWithoutInvoice(deps, cleared);
    ChatWithoutInvoice(deps, cleared, message);
  }

  /** After a clear no chat request is answered, whatever its body. */
  lemma NoAnswerAfterClear(deps: Deps, st: State, body: Json)
    ensures Step(deps, Step(deps, st, Clear).state, ChatRequestOf(ChatPost(body))).response.status != 200
  {
    ChatUnansweredWithoutInvoice(deps, Step(deps, st, Clear).state, body);
  }

  /** A session without invoice data answers no chat request, whatever its body. */
  lemma ChatUnansweredWithoutInvoice(deps: Deps, st: State, body: Json)
    requires "invoice_data" !in st.session
    ensures Step(deps, st, ChatRequestOf(ChatPost(body))).response.status != 200
  {
    MarkPermanentKeeps(st.session);
  }

  /** A session without invoice keys reports no invoice, no file and no address. */
  lemma StatusWithoutInvoice(deps: Deps, st: State)
    requires "invoice_data" !in st.session && "invoice_file" !in st.session
    ensures
      var body := Step(deps, st, GetStatus).response.body;
      && body.fields["has_invoice"] == JBool(false)
      && body.fields["invoice_file"] == JNull
      && body.fields["image_url"] == JNull
  {
    MarkPermanentKeeps(st.session);
  }

  /** Without invoice data no chat message is answered: a well-formed one gets 400. */
  lemma ChatWithoutInvoice(deps: Deps, st: State, message: string)
    requires "invoice_data" !in st.session
    ensures Step(deps, st, ChatRequestOf(ChatPost(JObj(map["message" := JStr(message)])))).response.status == 400
  {
    MarkPermanentKeeps(st.session);
  }

  /** OPTIONS on either JSON endpoint answers the preflight body and touches nothing
      but the before-request flag. */
  lemma PreflightLeavesStateAlone(deps: Deps, st: State, io: UploadInputs)
    ensures Step(deps, st, Upload(UploadOptions, io)).response == Response(200, PreflightBody)
    ensures Step(deps, st, ChatRequestOf(ChatOptions)).response == Response(200, PreflightBody)
    ensures UploadInvoice(deps, st, UploadOptions, io).state == st
    ensures ChatMessage(deps, st, ChatOptions).state == st
    ensures Step(deps, st, Upload(UploadOptions, io)).state == State(MarkPermanent(st.session), st.chatbot)
    ensures Step(deps, st, ChatRequestOf(ChatOptions)).state == State(MarkPermanent(st.session), st.chatbot)
  {
  }
}

=== FILE: simple_chatbot.dfy ===
/** The in-memory holder of the last extraction result used as chat context
    (app/simple_chatbot.py). One holder is modelled; it is not keyed by session. */
module SimpleChatbot {
  import opened Json

  /** The holder's one slot; `JNull` stands for Python's None. */
  datatype Chatbot = Chatbot(invoiceData: Json)

  const NoDataContext: string := "No invoice data available"

  /** A freshly constructed holder. */
  function New(): Chatbot {
    Chatbot(JNull)
  }

  /** `update_invoice_data`: the slot takes the new value, whatever it is. */
  function UpdateInvoiceData(bot: Chatbot, data: Json): Chatbot {
    Chatbot(data)
  }

  /** `get_context_for_question`: the sentinel when the slot is falsy, else `str(data)`.
      `show` stands for Python's `str()` of the stored value. The holder is unchanged:
      the query returns no new state. */
  function ContextForQuestion(bot: Chatbot, question: string, show: Json -> string): string {
    if !Truthy(bot.invoiceData) then NoDataContext else show(bot.invoiceData)
  }

  /** A fresh holder reports the sentinel. */
  lemma FreshContext(question: string, show: Json -> string)
    ensures ContextForQuestion(New(), question, show) == NoDataContext
  {
  }

  /** After a truthy update the context is the string form of exactly that data. */
  lemma ContextAfterUpdate(bot: Chatbot, data: Json, question: string, show: Json -> string)
    requires Truthy(data)
    ensures ContextForQuestion(UpdateInvoiceData(bot, data), question, show) == show(data)
  {
  }

  /** A falsy update (an empty dict, None, ...) makes the holder report the sentinel again. */
  lemma ContextAfterFalsyUpdate(bot: Chatbot, data: Json, question: string, show: Json -> string)
    requires !Truthy(data)
    ensures ContextForQuestion(UpdateInvoiceData(bot, data), question, show) == NoDataContext
  {
  }

  /** The question never influences the context. */
  lemma ContextIgnoresQuestion(bot: Chatbot, q1: string, q2: string, show: Json -> string)
    ensures ContextForQuestion(bot, q1, show) == ContextForQuestion(bot, q2, show)
  {
  }

  /** A second update fully replaces the first. */
  lemma LastWriteWins(bot: Chatbot, d1: Json, d2: Json)
    ensures UpdateInvoiceData(UpdateInvoiceData(bot, d1), d2) == UpdateInvoiceData(bot, d2)
  {
  }

  /** The holder after a series of updates, applied in order. */
  function Replay(bot: Chatbot, updates: seq<Json>): Chatbot
    decreases |updates|
  {
    if updates == [] then bot else Replay(UpdateInvoiceData(bot, updates[0]), updates[1..])
  }

  /** Over any series of updates only the last one is remembered. */
  lemma {:induction false} ReplayKeepsLast(bot: Chatbot, updates: seq<Json>)
    requires updates != []
    ensures Replay(bot, updates) == Chatbot(updates[|updates| - 1])
    decreases |updates|
  {
    if |updates| > 1 {
      ReplayKeepsLast(UpdateInvoiceData(bot, updates[0]), updates[1..]);
    }
  }
}

=== FILE: utils.dfy ===
/** Upload validation and naming, invoice-record validation and prompt loading
    (the helpers of app/utils.py). */
module Utils {
  import opened Wrappers
  import opened PyText
  import opened Json
  import opened PosixPath

  /** The default allow-list of `allowed_file`. */
  const DefaultExtensions: set<string> := {"png", "jpg", "jpeg", "gif", "bmp", "webp"}

  /** The text after the last dot, `filename.rsplit('.', 1)[1]` (the whole name when there is no dot). */
  function LastDotSuffix(filename: string): string {
    AfterLast(filename, '.')
  }

  /** `allowed_file`: the name has a dot and the lower-cased text after its last dot is allowed. */
  predicate AllowedFile(filename: string, allowed: set<string>) {
    '.' in filename && Lower(LastDotSuffix(filename)) in allowed
  }

  /** A name without any dot is never allowed, whatever the allow-list. */
  lemma AllowedFileNoDot(filename: string, allowed: set<string>)
    requires '.' !in filename
    ensures !AllowedFile(filename, allowed)
  {
  }

  /** Only the text after the last dot decides, compared after lower-casing;
      everything before it is irrelevant. Every dotted name has this shape. */
  lemma {:induction false} AllowedFileLastDot(stem: string, ext: string, allowed: set<string>)
    requires '.' !in ext
    ensures AllowedFile(stem + "." + ext, allowed) <==> Lower(ext) in allowed
  {
    var f := stem + "." + ext;
    var head := stem + ".";
    assert f == head + ext;
    RFindAppendLeft(head, ext, '.');
    RFindUnique(head, '.', |stem|);
    assert f[|stem|] == '.';
    assert f[|stem| + 1..] == ext;
  }

  /** A name ending in a dot has an empty extension, which the default list does not allow. */
  lemma AllowedFileTrailingDot(stem: string)
    ensures !AllowedFile(stem + ".", DefaultExtensions)
  {
    AllowedFileLastDot(stem, "", DefaultExtensions);
    assert stem + "." + "" == stem + ".";
    assert Lower("") == "";
  }

  /** "a.png.exe" is refused although it contains ".png". */
  lemma AllowedFileInnerExtension()
    ensures !AllowedFile("a.png.exe", DefaultExtensions)
  {
    AllowedFileLastDot("a.png", "exe", DefaultExtensions);
    assert "a.png" + "." + "exe" == "a.png.exe";
    assert Lower("exe") == "exe";
  }

  /** "a.tar.PNG" is accepted: the extension is compared after lower-casing. */
  lemma AllowedFileUpperCase()
    ensures AllowedFile("a.tar.PNG", DefaultExtensions)
  {
    AllowedFileLastDot("a.tar", "PNG", DefaultExtensions);
    assert "a.tar" + "." + "PNG" == "a.tar.PNG";
    assert Lower("PNG") == "png";
  }

  /** A `datetime.now().strftime("%Y%m%d_%H%M%S")` value: eight digits, an underscore, six digits. */
  predicate IsTimestamp(ts: string) {
    |ts| == 15 && forall i | 0 <= i < 15 :: if i == 8 then ts[i] == '_' else '0' <= ts[i] <= '9'
  }

  lemma TimestampHasNoSeparators(ts: string)
    requires IsTimestamp(ts)
    ensures '.' !in ts && '/' !in ts
  {
  }

  /** The stored name `f"{name}_{timestamp}{ext}"` where `name, ext = os.path.splitext(sanitized)`. */
  function SavedName(sanitized: string, timestamp: string): string {
    var (name, ext) := SplitExt(sanitized);
    name + "_" + timestamp + ext
  }

  /** The path `save_uploaded_file` writes to and returns: the saved name joined under the
      upload folder. `secureFilename` stands for werkzeug's `secure_filename`. */
  function SaveUploadedFile(uploadFolder: string, clientFilename: string,
                            secureFilename: string -> string, timestamp: string): string
  {
    Join(uploadFolder, SavedName(secureFilename(clientFilename), timestamp))
  }

  /** Splitting the saved name again gives the original extension back, and the
      timestamp stays in the stem: the time stamp never moves the extension. */
  lemma SavedNameKeepsExtension(sanitized: string, timestamp: string)
    requires '.' !in timestamp && '/' !in timestamp
    ensures SplitExt(SavedName(sanitized, timestamp))
         == (SplitExt(sanitized).0 + "_" + timestamp, SplitExt(sanitized).1)
  {
    var tail := "_" + timestamp;
    assert '.' !in tail && '/' !in tail by {
      assert forall k | 1 <= k < |tail| :: tail[k] == timestamp[k - 1];
    }
    var (n, e) := SplitExt(sanitized);
    assert SavedName(sanitized, timestamp) == (n + tail) + e;
    if e != [] {
      InsertBeforeExtension(sanitized, tail);
    } else {
      assert n == sanitized;
      assert (n + tail) + e == sanitized + tail;
      assert n + "_" + timestamp == n + tail;
      AppendWithoutExtension(sanitized, tail);
    }
  }

  /** Text free of dots and slashes inserted just before an extension leaves it the extension. */
  lemma {:induction false} InsertBeforeExtension(p: string, tail: string)
    requires '.' !in tail && '/' !in tail
    requires SplitExt(p).1 != []
    ensures SplitExt(SplitExt(p).0 + tail + SplitExt(p).1) == (SplitExt(p).0 + tail, SplitExt(p).1)
  {
    var (n, e) := SplitExt(p);
    var a := n + tail;
    var q := a + e;
    var sep := RFind(p, '/');
    var dot := RFind(p, '.');
    assert dot > sep && HasNonDot(p, sep + 1, dot);
    assert n == p[..dot] && e == p[dot..];
    RFindUnique(e, '.', 0);
    RFindAppendRight(a, e, '.');
    RFindAppendLeft(a, e, '/');
    RFindAppendLeft(n, tail, '/');
    RFindAppendLeft(n, e, '/');
    assert RFind(q, '.') == |a|;
    assert RFind(q, '/') == sep;
    var k :| 0 <= sep + 1 <= k < dot <= |p| && p[k] != '.';
    assert q[k] == p[k];
    assert HasNonDot(q, sep + 1, |a|);
    assert q[..|a|] == a && q[|a|..] == e;
  }

  /** Appending text free of dots and slashes to a name without extension gives none either. */
  lemma {:induction false} AppendWithoutExtension(p: string, tail: string)
    requires '.' !in tail && '/' !in tail
    requires SplitExt(p).1 == []
    ensures SplitExt(p + tail) == (p + tail, [])
  {
    var q := p + tail;
    var sep := RFind(p, '/');
    var dot := RFind(p, '.');
    RFindAppendLeft(p, tail, '.');
    RFindAppendLeft(p, tail, '/');
    assert !(dot > sep && HasNonDot(p, sep + 1, dot));
  }

  /** For one upload name, different time stamps always give different stored names. */
  lemma {:induction false} SavedNameInjective(sanitized: string, t1: string, t2: string)
    requires t1 != t2
    ensures SavedName(sanitized, t1) != SavedName(sanitized, t2)
  {
    var (n, e) := SplitExt(sanitized);
    var s1 := n + "_" + t1 + e;
    var s2 := n + "_" + t2 + e;
    if |t1| == |t2| {
      assert s1[|n| + 1..|n| + 1 + |t1|] == t1;
      assert s2[|n| + 1..|n| + 1 + |t2|] == t2;
    } else {
      assert |s1| != |s2|;
    }
  }

  /** The base name of the returned path is the saved name, so the name stored in
      the session and the file on disk agree. */
  lemma SaveUploadedFileBasename(uploadFolder: string, clientFilename: string,
                                 secureFilename: string -> string, timestamp: string)
    requires '/' !in secureFilename(clientFilename) && IsTimestamp(timestamp)
    ensures Basename(SaveUploadedFile(uploadFolder, clientFilename, secureFilename, timestamp))
         == SavedName(secureFilename(clientFilename), timestamp)
  {
    var s := secureFilename(clientFilename);
    TimestampHasNoSeparators(timestamp);
    SavedNameHasNoSlash(s, timestamp);
    BasenameOfJoin(uploadFolder, SavedName(s, timestamp));
  }

  /** Neither the name's parts nor the time stamp bring a slash into the saved name. */
  lemma SavedNameHasNoSlash(sanitized: string, timestamp: string)
    requires '/' !in sanitized && '/' !in timestamp
    ensures '/' !in SavedName(sanitized, timestamp)
  {
    var (n, e) := SplitExt(sanitized);
    assert n + e == sanitized;
    NoSlashInParts(sanitized, n, e);
    NoSlashInJoin(n, "_" + timestamp, e);
  }

  /** The two halves of a slash-free string are slash-free. */
  lemma NoSlashInParts(s: string, a: string, b: string)
    requires a + b == s && '/' !in s
    ensures '/' !in a && '/' !in b
  {
    assert forall k | 0 <= k < |a| :: a[k] == s[k];
    assert forall k | 0 <= k < |b| :: b[k] == s[|a| + k];
  }

  /** Three slash-free strings put together are slash-free. */
  lemma NoSlashInJoin(a: string, b: string, c: string)
    requires '/' !in a && '/' !in b && '/' !in c
    ensures '/' !in a + b + c
  {
    var t := a + b + c;
    forall k | 0 <= k < |t|
      ensures t[k] != '/'
    {
      if k < |a| {
        assert t[k] == a[k];
      } else if k < |a| + |b| {
        assert t[k] == b[k - |a|];
      } else {
        assert t[k] == c[k - |a| - |b|];
      }
    }
  }

  /** The keys `validate_invoice_data` looks for. */
  const RequiredFields: seq<string> := ["invoice_number", "vendor", "total_amount", "date"]

  /** `any(field in m for field in keys)`. */
  predicate AnyKeyIn(keys: seq<string>, m: map<string, Json>) {
    |keys| > 0 && (keys[0] in m || AnyKeyIn(keys[1..], m))
  }

  lemma {:induction false} AnyKeyInSpec(keys: seq<string>, m: map<string, Json>)
    ensures AnyKeyIn(keys, m) <==> exists i | 0 <= i < |keys| :: keys[i] in m
  {
    if |keys| > 0 {
      AnyKeyInSpec(keys[1..], m);
      if exists i | 0 <= i < |keys| :: keys[i] in m {
        var i :| 0 <= i < |keys| && keys[i] in m;
        if i > 0 {
          assert keys[1..][i - 1] == keys[i];
        }
      }
    }
  }

  /** `validate_invoice_data`: a dict that has one of the key fields or more than two keys. */
  predicate ValidateInvoiceData(data: Json) {
    data.JObj? && (AnyKeyIn(RequiredFields, data.fields) || |data.fields| > 2)
  }

  /** Non-objects are invalid; an object is valid exactly when it has one of the four
      key fields or more than two keys. */
  lemma ValidateInvoiceDataSpec(data: Json)
    ensures ValidateInvoiceData(data) <==>
      data.JObj? &&
      ("invoice_number" in data.fields || "vendor" in data.fields ||
       "total_amount" in data.fields || "date" in data.fields || |data.fields| > 2)
  {
    if data.JObj? {
      AnyKeyInSpec(RequiredFields, data.fields);
      var m := data.fields;
      if "invoice_number" in m { assert RequiredFields[0] in m; }
      if "vendor" in m { assert RequiredFields[1] in m; }
      if "total_amount" in m { assert RequiredFields[2] in m; }
      if "date" in m { assert RequiredFields[3] in m; }
    }
  }

  /** `get_default_prompt()`: a line break, then the lines of `PromptLine`, each ended by one. */
  const DefaultPrompt: string := "\n" + PromptLinesFrom(0)

  /** The number of lines of the default prompt. */
  const PromptLineCount: nat := 35

  /** Lines `i` to the last of the default prompt, each followed by a line break. */
  function PromptLinesFrom(i: nat): string
    decreases PromptLineCount - i
  {
    if i < PromptLineCount then PromptLine(i) + "\n" + PromptLinesFrom(i + 1) else ""
  }

  /** Line `i` of the default prompt. */
  function PromptLine(i: nat): string
    requires i < PromptLineCount
  {
    if i == 0 then "Please analyze this invoice image and extract all relevant information in a structured JSON format."
    else if i == 1 then ""
    else if i == 2 then "Include the following information if available:"
    else if i == 3 then "- Invoice number"
    else if i == 4 then "- Date"
    else if i == 5 then "- Due date"
    else if i == 6 then "- Vendor/Supplier information (name, address, contact details)"
    else if i == 7 then "- Bill to/Customer information (name, address)"
    else if i == 8 then "- Line items (description, quantity, unit price, total)"
    else if i == 9 then "- Subtotal"
    else if i == 10 then "- Tax information"
    else if i == 11 then "- Total amount"
    else if i == 12 then "- Payment terms"
    else if i == 13 then "- Any additional notes or special instructions"
    else if i == 14 then ""
    else if i == 15 then "Structure the response as a valid JSON object with clear field names. If any information is not clearly visible or available, indicate it as null or \"Not specified\"."
    else if i == 16 then ""
    else if i == 17 then "Example structure:"
    else if i == 18 then "{"
    else if i == 19 then "  \"invoice_number\": \"INV-001\","
    else if i == 20 then "  \"date\": \"2023-12-01\","
    else if i == 21 then "  \"vendor\": {"
    else if i == 22 then "    \"name\": \"Company Name\","
    else if i == 23 then "    \"address\": \"123 Main St, City, State\""
    else if i == 24 then "  },"
    else if i == 25 then "  \"total_amount\": 1000.00,"
    else if i == 26 then "  \"line_items\": ["
    else if i == 27 then "    {"
    else if i == 28 then "      \"description\": \"Product/Service\","
    else if i == 29 then "      \"quantity\": 1,"
    else if i == 30 then "      \"unit_price\": 1000.00,"
    else if i == 31 then "      \"total\": 1000.00"
    else if i == 32 then "    }"
    else if i == 33 then "  ]"
    else "}"
  }

  /** `load_prompt_template`: `contents` is the file's text, or None when opening or
      reading it raised. */
  function LoadPromptTemplate(contents: Option<string>): (r: string)
    ensures contents.None? ==> r == DefaultPrompt
    ensures contents.Some? ==> IsStripOf(contents.value, r)
  {
    match contents
    case Some(text) => StripSpec(text); Strip(text)
    case None => DefaultPrompt
  }

  /** The default prompt starts with a line break, which a successfully read
      (stripped) template never does: the two outcomes can always be told apart. */
  lemma LoadedPromptIsNeverDefault(text: string)
    ensures LoadPromptTemplate(Some(text)) != DefaultPrompt
  {
    LoadedPromptNeverStartsWithSpace(text, DefaultPrompt);
  }

  lemma LoadedPromptNeverStartsWithSpace(text: string, other: string)
    requires other != [] && IsSpace(other[0])
    ensures LoadPromptTemplate(Some(text)) != other
  {
    var r := LoadPromptTemplate(Some(text));
    var i, j :| StripAt(text, r, i, j);
  }
}

=== FILE: wrappers.dfy ===
/** Failure-carrying values used wherever the modelled program calls code whose
    outcome is not part of the model (a file read, a JSON parse, a network call). */
module Wrappers {

  /** An optional value: Python's "value or nothing" (a read that may fail, a key that may be absent). */
  datatype Option<+T> = None | Some(value: T)

  /** Either a value or the text of the exception the operation raised. */
  datatype Result<+T, +E> = Success(value: T) | Failure(error: E)
}
